=== FILE: README.md ===
# Location records of the QR documentation app, in Dafny

This project models the location-record engine of a field-documentation web app. An administrator registers
a location under a QR code id: a name, an area, a supervisor, a contact number and GPS coordinates. Field staff
later upload a "before" and an "after" photo. A map page shows every record whose coordinates are
valid, lets the user search and filter by completion status, and counts records per status. An edit
page loads one record by its QR code id and writes the edited fields back.

The model is pure Dafny: immutable datatypes and functions, plus one method with a loop.

- `Types` holds the record shapes. JavaScript's dynamic values are explicit: a coordinate is a
  `Value` that may be a number, a string or missing. A number may be finite, NaN or ±Infinity.
- `Repository` holds the store operations. The document store is a map from numeric document ids to
  records, with a counter that never hands out an id twice. A transport failure is an explicit input
  (`Transport = Up | Down`), and every operation returns a `Result`, except
  `Repository.CheckQRCodeExists`: the source catches the error there and answers `false`, so it
  returns a `bool`.
- `Coordinates`, `Status` and `MapQuery` hold the map page: the coordinate check, the three-state
  status, the search and status filter, and the statistics cards.
- `Admin` holds the creation form: the field rules, `validateQRCode`, the gated create, and
  `generateUploadUrl`.
- `UploadRoute` follows a generated upload link to the `/upload/:qrcodeid` route. It applies
  the rewrites of the basic URL parser of the WHATWG URL Standard that matter to that route:
  - trailing spaces and C0 controls are stripped;
  - tabs, LF and CR are deleted;
  - `\` is read as `/`;
  - the path ends at the first `?` or `#`;
  - the path is split into segments, and `.` and `..` segments (the `%2e` spellings included)
    are resolved as the parser's path state does.

  The router then matches `upload`, one non-empty segment, and any number of trailing slashes.
- `EditPage` holds the edit page: the fetch, `handleChange` and `handleSubmit`.
- `Lifecycle` relates the repository operations to the status.
- `Seqs` gives `Array.prototype.filter`, `String.prototype.includes`, `toLowerCase` and
  `length` one definition each. For filter, includes and length the meaning is proved:
  order-preserving subsequence, substring occurrence, and a count of UTF-16 code units.

`hasValidCoordinates` tests only that both values are finite numbers, so a longitude of 200 is
accepted (`Coordinates.ValidityExamples`).

Modelling choices that stand in for behaviour of the document store:

- An equality query without `orderBy` returns documents by ascending document id. "The first match"
  is therefore the match with the least id.
- `orderBy('createdAt', 'desc')` breaks ties by descending document id.
- `updateDoc` on a missing document fails with NOT_FOUND. `deleteDoc` on a missing document succeeds.
- `createLocation` writes `locationType: undefined`. The store's default settings reject an
  `undefined` field value, so the program's creates succeed only when the store is configured to
  ignore undefined properties. `Repository.CreateLocation` assumes that configuration and treats
  the key as omitted.
- A `createdAt` read back as a `Date` or as a wrapper with `toDate()` is one `Timestamp` (an integer).

## Model

| member | source | states |
|---|---|---|
| Types.KeyNameInjective | project/src/types/index.ts:1-19 | the ten stored key names are pairwise distinct, so a key is identified by its spelling |
| Types.FieldsDetermineLocation | project/src/types/index.ts:1-19 | a record is determined by its id and the values under its keys |
| Types.SlotKey | project/src/types/index.ts:21-24 | a photo type selects one of the two photo slots, `before` exactly the before slot |
| Types.SlotNameMatchesKey | project/src/services/firebaseService.ts:109-114 | the computed key `${type}Photo` spells exactly the slot key of that photo type |
| Seqs.Filter | project/src/pages/MapPage.tsx:63 | the filtered list is an order-preserving subsequence holding exactly the elements that pass, each with its original multiplicity |
| Seqs.JsLength | project/src/pages/AdminDashboard.tsx:39 | `length` counts UTF-16 code units: at least the number of characters and at most twice it |
| Seqs.JsLengthIsCharCount | project/src/pages/AdminDashboard.tsx:39 | the JavaScript length equals the character count exactly when every character lies in the Basic Multilingual Plane |
| Seqs.IncludesIsSubstring | project/src/pages/MapPage.tsx:83-86 | the `includes` scan succeeds exactly when the needle occurs as a contiguous block of the haystack |
| Coordinates.IsValidCoordinate | project/src/pages/MapPage.tsx:37-39 | a value is valid exactly when it is a finite number; strings, missing values, NaN and infinities are not |
| Coordinates.HasValidCoordinates | project/src/pages/MapPage.tsx:42-44 | a record is placeable exactly when both latitude and longitude are finite numbers |
| Coordinates.ValidityDependsOnlyOnCoordinates | project/src/pages/MapPage.tsx:42-44 | no field other than latitude and longitude affects the decision |
| Coordinates.ValidityExamples | project/src/pages/MapPage.tsx:37-44 | (28.6139, 77.2090) and a longitude of 200 pass; a NaN latitude, a missing longitude and a string latitude fail |
| Status.GetLocationStatus | project/src/pages/MapPage.tsx:112-119 | complete iff both photos are present, partial iff exactly one is, pending iff neither is |
| Status.StatusDependsOnlyOnPresence | project/src/pages/MapPage.tsx:112-119 | the status depends on photo presence only, never on urls, upload times or other fields |
| Status.FilterAgreesWithStatus | project/src/pages/MapPage.tsx:91-107 | the status filter's own switch keeps a record exactly when the classifier gives it the chosen status; `all` keeps everything |
| Status.ComputeStats | project/src/pages/MapPage.tsx:216-248 | the complete, partial and pending cards count the records the classifier puts in each status, and they add up to the total |
| MapQuery.FetchLocations | project/src/pages/MapPage.tsx:59-71 | after a successful fetch the page holds, in fetched order, exactly the records with valid coordinates; a failed fetch keeps the previous set |
| MapQuery.MatchesSearchIsSubstring | project/src/pages/MapPage.tsx:82-87 | a record matches the search exactly when the lower-cased term is a substring of one of the four lower-cased fields |
| MapQuery.SearchStage | project/src/pages/MapPage.tsx:80-88 | an empty term keeps everything; otherwise exactly the matching records stay, in order |
| MapQuery.StatusStage | project/src/pages/MapPage.tsx:90-107 | `all` keeps everything; otherwise exactly the records of the chosen status stay, in order |
| MapQuery.ApplyFilters | project/src/pages/MapPage.tsx:77-110 | the visible list is an order-preserving subsequence of the loaded set holding exactly the records that pass both tests, with their multiplicities; no term and `all` show everything |
| MapQuery.ApplyFiltersIdempotent | project/src/pages/MapPage.tsx:77-110 | filtering the visible list again with the same inputs changes nothing |
| MapQuery.StagesCommute | project/src/pages/MapPage.tsx:77-110 | running the status stage before the search stage gives the same list |
| MapQuery.SearchAndStatusExample | project/src/pages/MapPage.tsx:77-110 | searching "NGM" under the pending filter, over a pending and a complete record that both match, shows only the pending one |
| Repository.CreateLocation | project/src/services/firebaseService.ts:17-35 | a create adds one record under a fresh id, with the submitted fields, the creation time and no photos, and leaves every other record alone; a transport failure throws and writes nothing |
| Repository.GetLocationById | project/src/services/firebaseService.ts:37-55 | the stored record for a present id, `null` for an absent one, an error when the store is unreachable |
| Repository.FirstMatchFrom | project/src/services/firebaseService.ts:60-69 | the equality query's first hit is a match and no smaller id from the start of the scan matches; no hit means no match |
| Repository.GetLocationByQRCode | project/src/services/firebaseService.ts:57-80 | `null` iff no record has the QR code id; otherwise a stored record with that id, the one with the least document id |
| Repository.LookupFindsTheUniqueRecord | project/src/services/firebaseService.ts:57-80 | when QR code ids are unique the lookup returns the one record that has it |
| Repository.CheckQRCodeExists | project/src/services/firebaseService.ts:148-157 | true iff the store is reachable and some record has the id; a failing query answers false |
| Repository.InsertByAge | project/src/services/firebaseService.ts:84-85 | placing a record into a newest-first list keeps it newest-first and adds exactly that record |
| Repository.GetAllLocations | project/src/services/firebaseService.ts:82-96 | the listing holds every stored record exactly once, in strictly descending creation order |
| Repository.NewestFirstUnique | project/src/services/firebaseService.ts:84-91 | two newest-first lists with the same records are equal, so the listing is determined by the store |
| Repository.ListingOrderExample | project/src/services/firebaseService.ts:82-96 | three records created at t1 < t2 < t3 are listed as t3, t2, t1 |
| Repository.MergeFields | project/src/services/firebaseService.ts:125-135 | an update takes every key present in the partial record from it and keeps every other key and the id |
| Repository.MergeIdempotent | project/src/services/firebaseService.ts:125-135 | applying the same partial record twice is the same as applying it once |
| Repository.UpdateLocation | project/src/services/firebaseService.ts:125-135 | an update succeeds iff the store is reachable and the document exists; it changes exactly the keys supplied on that one record |
| Repository.MergePhotoPatch | project/src/services/firebaseService.ts:107-116 | the one-key upload patch sets that photo slot and nothing else |
| Repository.UploadPhoto | project/src/services/firebaseService.ts:98-123 | the upload sets the slot of the photo type to the given url and time on an existing record and leaves every other record and field unchanged |
| Repository.DeleteLocation | project/src/services/firebaseService.ts:137-146 | a delete removes exactly that document, succeeds on an absent one, and throws only when the store is unreachable |
| Repository.DeleteThenGet | project/src/services/firebaseService.ts:137-146 | after a delete the id reads back as `null`, and a later create does not reuse it |
| Lifecycle.CreatedRecordIsPending | project/src/services/firebaseService.ts:17-35 | a freshly created record is pending |
| Lifecycle.UploadBeforeThenAfter | project/src/services/firebaseService.ts:98-123 | a before upload turns a pending record partial, and an after upload then makes it complete |
| Lifecycle.UploadNeverRegresses | project/src/services/firebaseService.ts:98-123 | after any upload a record is no longer pending, and a complete record stays complete |
| Admin.MatchesDigitsMeaning | project/src/pages/AdminDashboard.tsx:208-214 | the contact-number pattern accepts exactly the strings of ten ASCII digits |
| Admin.FieldErrors | project/src/pages/AdminDashboard.tsx:133-278 | each form field is rejected exactly when its rule fails: a QR code id under six UTF-16 code units, an empty name, area or supervisor, a contact number that is not ten digits, a latitude outside [-90, 90] or a longitude outside [-180, 180] (NaN included) |
| Admin.ValidateQRCode | project/src/pages/AdminDashboard.tsx:38-52 | an id under six UTF-16 code units is rejected before the store is asked; a long enough id is rejected iff the existence check reports it taken |
| Admin.QRCodeLengthExamples | project/src/pages/AdminDashboard.tsx:39-42 | three emoji make an id six code units long, which passes the length test; "NGM" does not |
| Admin.OnSubmit | project/src/pages/AdminDashboard.tsx:82-103 | a record is registered iff the fields pass, the id is available and the write gets through; every other outcome leaves the store unchanged |
| Admin.RejectedIdCausesNoWrite | project/src/pages/AdminDashboard.tsx:82-103 | a short id, or one the reachable store already holds, never reaches the store |
| Admin.SubmitPreservesUniqueness | project/src/pages/AdminDashboard.tsx:82-103 | in one sequential session whose existence checks get through, submits keep QR code ids unique |
| Admin.FailOpenAdmitsDuplicate | project/src/services/firebaseService.ts:153-156 | when the existence query throws, an id already stored is registered a second time |
| Admin.RegisteredRecordIsOnMap | project/src/pages/AdminDashboard.tsx:82-103 | a registered record has valid, in-range coordinates, a QR code id of at least six UTF-16 code units, and starts out pending |
| Admin.GenerateUploadUrl | project/src/pages/AdminDashboard.tsx:105-107 | the link is the origin, then `/upload/`, then the QR code id, in that order and nothing else |
| UploadRoute.StripTrailing | project/src/App.tsx:42 | the URL parser's trailing strip: the result is a prefix of the input, does not end in a space or C0 control, and only spaces and controls were removed |
| UploadRoute.DropTabsAndNewlines | project/src/App.tsx:42 | the URL parser's deletion: a character survives iff it is in the input and is not tab, LF or CR, and the text is unchanged iff it holds none of them |
| UploadRoute.DropTabsAndNewlinesKeepsOrder | project/src/App.tsx:42 | the deletion keeps the surviving characters in their order, each as often as in the input, and removes every tab, LF and CR |
| UploadRoute.DropTabsAndNewlinesConcat | project/src/App.tsx:42 | the deletion works piecewise over a concatenation |
| UploadRoute.BackslashAsSlash | project/src/App.tsx:42 | the parser reads every `\` in the path as `/` and changes no other character |
| UploadRoute.PathPart | project/src/App.tsx:42 | the path is the longest prefix free of `?` and `#`: it stops exactly at the first of them |
| UploadRoute.Segments | project/src/App.tsx:42 | the path splits at every `/` into at least one segment, none holding a `/`; a path without `/` is one segment |
| UploadRoute.SegmentsJoin | project/src/App.tsx:42 | joining the segments with `/` gives back the path, so no character is lost or added |
| UploadRoute.Resolve | project/src/App.tsx:42 | resolution never invents a segment: each one comes from the path so far, is a non-dot input segment, or is the empty segment a trailing dot segment leaves |
| UploadRoute.ResolveWithoutDots | project/src/App.tsx:42 | without dot segments, resolution appends every segment unchanged and in order |
| UploadRoute.ResolveSingleDotStep | project/src/App.tsx:42 | a `.` segment that is not the last leaves the path as it is |
| UploadRoute.ResolveDoubleDotStep | project/src/App.tsx:42 | a `..` segment that is not the last removes the last segment of the path, if there is one |
| UploadRoute.UploadRouteSegment | project/src/App.tsx:42 | the route yields a segment only for a link of the origin, `/upload/` and a tail, and what it yields is one non-empty, non-dot segment free of `/ ? #` |
| UploadRoute.RouteOfPathIsSegment | project/src/App.tsx:42 | whatever the route takes from a path is one non-empty, non-dot segment free of `/ ? #` |
| UploadRoute.SegmentRoutes | project/src/App.tsx:42 | a single non-dot segment after `/upload/` is the route parameter |
| UploadRoute.TrailingSlashRoutes | project/src/App.tsx:42 | the route ignores one trailing slash after its segment |
| UploadRoute.TwoSegmentsMissRoute | project/src/App.tsx:42 | two non-empty segments after `/upload/` do not match the route |
| UploadRoute.DotSegmentRoutes | project/src/App.tsx:42 | a leading `.` segment is resolved away and the segment after it is the parameter |
| UploadRoute.RouteOfGeneratedLink | project/src/pages/AdminDashboard.tsx:105-107 | on a generated link, the route sees the path part of what the URL parser makes of the QR code id |
| UploadRoute.ParsedTailFixes | project/src/App.tsx:42 | the parser leaves a text alone and it is one routable segment exactly when it is non-empty, not a dot segment, free of `/ ? # \`, tabs and newlines, and does not end in a space or control character |
| UploadRoute.UploadUrlRoundTrip | project/src/pages/AdminDashboard.tsx:105-107 | the generated link reaches the `/upload/:qrcodeid` route with the QR code id as its parameter iff the URL parser leaves the id alone: non-empty, not a dot segment, no `/ ? # \`, tab or newline, no trailing space or control character |
| UploadRoute.RoutedIdIsWholeText | project/src/pages/AdminDashboard.tsx:105-107 | when the route returns the whole id, the id is one the URL parser leaves alone |
| UploadRoute.QueryEndsPath | project/src/pages/AdminDashboard.tsx:105-107 | an id `a?b` reaches the upload page as `a`: the parser cuts the path at the `?` |
| UploadRoute.TrailingSlashIgnored | project/src/pages/AdminDashboard.tsx:105-107 | an id ending in a backslash reaches the upload page without it: the backslash becomes a trailing slash, which the route ignores |
| UploadRoute.BackslashIdMissesRoute | project/src/pages/AdminDashboard.tsx:105-107 | an id with a backslash between two routable parts, which every form rule accepts, never matches the upload route: the parser reads it as `/` |
| UploadRoute.DotSegmentResolved | project/src/pages/AdminDashboard.tsx:105-107 | an id `.\a` reaches the upload page as `a`: the parser reads `.\` as a `.` segment and resolves it away |
| UploadRoute.TrailingSpaceIsTrimmed | project/src/pages/AdminDashboard.tsx:105-107 | an id that routes unchanged, with a space appended, reaches the upload page without the space |
| UploadRoute.TabIsDeleted | project/src/pages/AdminDashboard.tsx:105-107 | a tab inside an id is deleted: the upload page receives the id with the tab removed |
| EditPage.AsPatch | project/src/pages/EditQRPage.tsx:22 | the edit buffer holds every key the record carries, with the record's value |
| EditPage.UneditedWriteBackIsIdentity | project/src/pages/EditQRPage.tsx:45-57 | writing back an unedited buffer leaves the record as it was |
| EditPage.FetchLocation | project/src/pages/EditQRPage.tsx:15-38 | with no route parameter nothing happens; a hit loads the record, its buffer and its document id; a miss or a failing lookup stops loading and goes back to the map |
| EditPage.HandleChangeAsWritten | project/src/pages/EditQRPage.tsx:40-43 | as written, the raw input text replaces one key, so an edited coordinate is stored as a string |
| EditPage.HandleChange | project/src/pages/EditQRPage.tsx:40-43 | corrected: a coordinate input contributes its numeric reading, a text input its text; no other key changes |
| EditPage.Step | project/src/pages/EditQRPage.tsx:40-43 | one change event, under the program's handler or the corrected one, replaces exactly its own key |
| EditPage.ChangesKeepOtherKeys | project/src/pages/EditQRPage.tsx:76-143 | no run of edits, under either handler, adds, removes or changes a key that has no input on the form |
| EditPage.HandleSubmit | project/src/pages/EditQRPage.tsx:45-57 | a submit writes iff the id and record are loaded and the update succeeds; it then merges the buffer into that one document and goes back to the map; otherwise nothing changes |
| EditPage.SubmittedField | project/src/pages/EditQRPage.tsx:45-57 | after a successful submit each key holds the buffer's value if the buffer has it, else the stored value |
| EditPage.EditsKeepUneditable | project/src/pages/EditQRPage.tsx:76-143 | after any edits, under either handler, the buffer still holds the loaded values under the keys that have no input |
| EditPage.UneditableKeysSurviveMerge | project/src/pages/EditQRPage.tsx:45-57 | writing such a buffer keeps the loaded QR code id and creation time, and each photo slot is the loaded photo, or the stored one when none was loaded |
| EditPage.IdentityKeysSurviveEdit | project/src/pages/EditQRPage.tsx:15-57 | load, edit under either handler, submit: the QR code id and creation time are the loaded ones; each photo slot is the loaded photo if there was one, otherwise the photo stored at submit time |
| EditPage.SaveRevertsReupload | project/src/pages/EditQRPage.tsx:22-49 | as written, a photo re-uploaded while the page was open into a slot filled at load time is overwritten by the loaded photo on save |
| EditPage.EditedPart | project/src/pages/EditQRPage.tsx:76-143 | the buffer restricted to the keys the form has inputs for, with the buffer's values |
| EditPage.HandleSubmitEdits | project/src/pages/EditQRPage.tsx:45-57 | corrected submit: the same gate and navigation, but only the edited keys are merged into the document |
| EditPage.MergeEditedField | project/src/pages/EditQRPage.tsx:45-57 | merging the edited keys takes each edited key present in the buffer from it and keeps every other key as stored |
| EditPage.MergeEditedPart | project/src/pages/EditQRPage.tsx:45-57 | merging the edited keys keeps the stored QR code id, creation time and photos |
| EditPage.SaveKeepsReupload | project/src/pages/EditQRPage.tsx:45-57 | with the corrected submit, the photos, QR code id and creation time stored at submit time survive, and the edited keys take the buffer's values |
| EditPage.EditedLatitudeLeavesMap | project/src/pages/EditQRPage.tsx:121-131 | as written, saving an edited latitude stores a string, and the record no longer has valid coordinates |
| EditPage.EditedCoordinateStaysOnMap | project/src/pages/EditQRPage.tsx:120-143 | with the corrected handler, saving a finite edited coordinate stores that number and the record stays on the map |

## Left out

- The photo blob write (`uploadBytes`, `getDownloadURL`) is left out because it is I/O. `UploadPhoto`
  takes the download url as a parameter. A blob written before a failing metadata update is
  not modelled.
- Clocks are parameters: `new Date()` and `Date.now()` become a `now` argument.
- The file name of a photo is not modelled. It is built from the id, type, time and file name
  and matters only to the blob store.
- Two sessions racing between the QR code check and the create are not modelled, because that is
  concurrency. `Admin.SubmitPreservesUniqueness` covers a single sequential session.
- `Seqs.Lower` lower-cases ASCII letters only, because Unicode case mapping is not modelled.
- The edit buffer's `id` key is not modelled, because it always equals the document id it is
  written to.
- UploadRoute.UploadUrlRoundTrip: percent-encoding is not modelled. The URL parser percent-encodes
  spaces, non-ASCII characters and a few others in the path, and the router decodes them back,
  so the model takes the two as cancelling out. An id that itself holds a `%` escape, such as
  `AB%41CD`, is decoded into something else, and the lemma does not say what the page receives
  for it. The `%2e` spellings of dot segments are modelled. The leading strip of controls and
  spaces is applied to the whole link and does not touch a serialized origin, so it is not
  modelled. The origin is taken to carry no path of its own.
- Admin.FieldErrors: the form library's coercion of number inputs is not modelled. Latitude and
  longitude arrive as numbers (`Num`), an empty input reads as NaN, and the possibility that a
  typed value reaches `createLocation` as a string is not represented.
- Alerts, navigation, loading spinners, rendering, map markers, the data table, `getCurrentLocation`
  (geolocation) and the delete button's confirmation are UI or I/O and are left out. The delete
  itself is `Repository.DeleteLocation`.
- Firestore ids are strings. Here they are natural numbers from a counter, which is enough for
  "fresh" and "never reused".

## Findings

| source | as written | input that shows it | evidently intended | confidence | as-written member | corrected member |
|---|---|---|---|---|---|---|
| project/src/pages/EditQRPage.tsx:40-43 | `handleChange` stores `e.target.value`, a string, under every key, including the number inputs `latitude` and `longitude`; `handleSubmit` writes that string to the store | load a record on the map, type `28.7` into Latitude, save: the stored latitude is the string "28.7", `isValidCoordinate` rejects it, and the record disappears from the map | store the input's numeric value for the coordinate inputs, so an edited record stays on the map | not executed | EditPage.HandleChangeAsWritten | EditPage.HandleChange |
| project/src/pages/EditQRPage.tsx:22-49 | the edit buffer is the whole loaded record, photos included, and `handleSubmit` writes all of it back | load a record whose before photo is p0; meanwhile a new before photo p1 is uploaded; save: the stored before photo is p0 again and p1 is lost | send only the fields the form edits, so a photo uploaded meanwhile survives the save | not executed | EditPage.HandleSubmit | EditPage.HandleSubmitEdits |

For the first row, `EditPage.EditedLatitudeLeavesMap` proves the as-written behaviour and
`EditPage.EditedCoordinateStaysOnMap` proves the corrected one. Runs of edits
(`EditPage.ApplyChanges`) are modelled under both handlers. For the second row,
`EditPage.SaveRevertsReupload` proves the as-written behaviour and `EditPage.SaveKeepsReupload`
proves the corrected one.

=== FILE: admin.dfy ===
/** The admin page: field rules of the creation form, the QR code id check, the gated
    create, and the upload link printed with the generated QR code. */
module Admin {
  import opened Common
  import opened Types
  import opened Repository
  import Coordinates
  import Status
  import Seqs

  /** The values the creation form submits. */
  datatype LocationForm = LocationForm(
    qrCodeId: string,
    locationName: string,
    area: string,
    supervisorName: string,
    contactNumber: string,
    latitude: Num,
    longitude: Num)

  /** The shortest QR code id the page accepts. */
  const MinQRCodeLength: nat := 6

  /** The number of digits of a contact number. */
  const ContactDigits: nat := 10

  predicate IsDigit(c: char)
  {
    '0' <= c <= '9'
  }

  /** The anchored pattern `^[0-9]{n}$`, matched one character at a time. */
  function MatchesDigits(s: string, n: nat): bool
  {
    if n == 0 then |s| == 0
    else |s| > 0 && IsDigit(s[0]) && MatchesDigits(s[1..], n - 1)
  }

  /** The pattern matches exactly the strings of `n` ASCII digits. */
  lemma {:induction false} MatchesDigitsMeaning(s: string, n: nat)
    ensures MatchesDigits(s, n) <==> |s| == n && forall i :: 0 <= i < |s| ==> IsDigit(s[i])
  {
    if n > 0 && |s| > 0 {
      MatchesDigitsMeaning(s[1..], n - 1);
      assert forall i :: 1 <= i < |s| ==> s[i] == s[1..][i - 1];
    }
  }

  /** The `required` rule of a text input: the value is not empty. */
  predicate Required(s: string)
  {
    s != ""
  }

  /** The `required`, `min` and `max` rules of a number input; an empty input reads as NaN. */
  predicate NumberInRange(n: Num, min: real, max: real)
  {
    n.Finite? && min <= n.x && n.x <= max
  }

  /** The inputs of the creation form. */
  const FormKeys: set<Key> := {QrCodeId, LocationName, Area, SupervisorName, ContactNumber, Latitude, Longitude}

  /** The rules registered on each input. */
  predicate Accepts(f: LocationForm, k: Key)
  {
    match k
    case QrCodeId => Required(f.qrCodeId) && Seqs.JsLength(f.qrCodeId) >= MinQRCodeLength
    case LocationName => Required(f.locationName)
    case Area => Required(f.area)
    case SupervisorName => Required(f.supervisorName)
    case ContactNumber => Required(f.contactNumber) && MatchesDigits(f.contactNumber, ContactDigits)
    case Latitude => NumberInRange(f.latitude, -90.0, 90.0)
    case Longitude => NumberInRange(f.longitude, -180.0, 180.0)
    case _ => true
  }

  /** The fields the form rejects; the form is submitted only when there are none. */
  function FieldErrors(f: LocationForm): (r: set<Key>)
    ensures r <= FormKeys
    ensures QrCodeId !in r <==> Seqs.JsLength(f.qrCodeId) >= 6
    ensures LocationName !in r <==> |f.locationName| > 0
    ensures Area !in r <==> |f.area| > 0
    ensures SupervisorName !in r <==> |f.supervisorName| > 0
    ensures ContactNumber !in r <==> |f.contactNumber| == 10 && forall i :: 0 <= i < 10 ==> '0' <= f.contactNumber[i] <= '9'
    ensures Latitude !in r <==> exists x :: f.latitude == Finite(x) && -90.0 <= x <= 90.0
    ensures Longitude !in r <==> exists y :: f.longitude == Finite(y) && -180.0 <= y <= 180.0
  {
    MatchesDigitsMeaning(f.contactNumber, ContactDigits);
    set k | k in FormKeys && !Accepts(f, k)
  }

  /** The answer of `validateQRCode`, with the reason for a rejection. */
  datatype QRVerdict = TooShort | AlreadyExists | Available

  /** `validateQRCode`: too short is decided before the store is asked; otherwise the id is
      rejected exactly when the existence check says it is taken. */
  function ValidateQRCode(s: Store, q: string, net: Transport): (r: QRVerdict)
    ensures r == TooShort <==> Seqs.JsLength(q) < 6
    ensures r == AlreadyExists <==> Seqs.JsLength(q) >= 6 && net.Up? && HasQRCode(s, q)
    ensures r == Available <==> Seqs.JsLength(q) >= 6 && !(net.Up? && HasQRCode(s, q))
  {
    if Seqs.JsLength(q) < MinQRCodeLength then TooShort
    else if CheckQRCodeExists(s, q, net) then AlreadyExists
    else Available
  }

  /** Lengths are counted in UTF-16 code units, as `String.prototype.length` does: three
      emoji make a six-unit id, which is long enough, while three ASCII letters are not. */
  lemma QRCodeLengthExamples(s: Store, net: Transport)
    ensures |"\U{1F600}\U{1F600}\U{1F600}"| == 3
    ensures ValidateQRCode(s, "\U{1F600}\U{1F600}\U{1F600}", net) != TooShort
    ensures ValidateQRCode(s, "NGM", net) == TooShort
  {
  }

  /** The argument `onSubmit` hands to `createLocation`. */
  function ToNewLocation(f: LocationForm): NewLocation
  {
    NewLocation(f.qrCodeId, f.locationName, f.area, f.supervisorName, f.contactNumber,
                Number(f.latitude), Number(f.longitude))
  }

  /** How a press of the submit button ends. */
  datatype SubmitOutcome = FieldsRejected(fields: set<Key>) | QRRejected(verdict: QRVerdict) | Registered(id: Id) | CreateFailed

  datatype Submission = Submission(store: Store, outcome: SubmitOutcome)

  /** The form submit: field rules first, then `validateQRCode`, and `createLocation` only
      when both pass. `checkNet` is the transport of the existence query, `writeNet` that
      of the write. Every outcome other than `Registered` leaves the store as it was. */
  function OnSubmit(s: Store, f: LocationForm, checkNet: Transport, writeNet: Transport, now: Timestamp): (r: Submission)
    ensures !r.outcome.Registered? ==> r.store == s
    ensures r.outcome.Registered? <==>
              FieldErrors(f) == {} && ValidateQRCode(s, f.qrCodeId, checkNet) == Available && writeNet.Up?
    ensures r.outcome.Registered? ==>
              && r.outcome.id !in s.docs
              && r.store.docs.Keys == s.docs.Keys + {r.outcome.id}
              && IsCreatedFrom(r.store.docs[r.outcome.id], ToNewLocation(f), now)
              && forall k :: k in s.docs ==> r.store.docs[k] == s.docs[k]
  {
    var errors := FieldErrors(f);
    if errors != {} then Submission(s, FieldsRejected(errors))
    else
      var verdict := ValidateQRCode(s, f.qrCodeId, checkNet);
      if verdict != Available then Submission(s, QRRejected(verdict))
      else
        match CreateLocation(s, ToNewLocation(f), now, writeNet)
        case Failure(_) => Submission(s, CreateFailed)
        case Success(c) => Submission(c.store, Registered(c.id))
  }

  /** An id shorter than six UTF-16 code units, or one the store already holds, never reaches it. */
  lemma RejectedIdCausesNoWrite(s: Store, f: LocationForm, checkNet: Transport, writeNet: Transport, now: Timestamp)
    requires Seqs.JsLength(f.qrCodeId) < 6 || (checkNet.Up? && HasQRCode(s, f.qrCodeId))
    ensures OnSubmit(s, f, checkNet, writeNet, now).store == s
    ensures !OnSubmit(s, f, checkNet, writeNet, now).outcome.Registered?
  {
  }

  /** In one sequential session whose existence checks get through, submits keep QR code
      ids unique. */
  lemma SubmitPreservesUniqueness(s: Store, f: LocationForm, writeNet: Transport, now: Timestamp)
    requires UniqueQRCodes(s)
    ensures UniqueQRCodes(OnSubmit(s, f, Up, writeNet, now).store)
  {
    var r := OnSubmit(s, f, Up, writeNet, now);
    if r.outcome.Registered? {
      var id := r.outcome.id;
      assert !HasQRCode(s, f.qrCodeId);
      forall j, k | j in r.store.docs && k in r.store.docs && j != k
        ensures r.store.docs[j].qrCodeId != r.store.docs[k].qrCodeId
      {
        if j == id {
          assert k in s.docs;
        } else if k == id {
          assert j in s.docs;
        }
      }
    }
  }

  /** The check fails open: when the existence query throws, a QR code id that is already
      stored is admitted a second time. */
  lemma FailOpenAdmitsDuplicate(s: Store, f: LocationForm, now: Timestamp)
    requires FieldErrors(f) == {}
    requires HasQRCode(s, f.qrCodeId)
    ensures OnSubmit(s, f, Down, Up, now).outcome.Registered?
    ensures !UniqueQRCodes(OnSubmit(s, f, Down, Up, now).store)
  {
    var r := OnSubmit(s, f, Down, Up, now);
    var k :| k in s.docs && s.docs[k].qrCodeId == f.qrCodeId;
    assert r.store.docs[k].qrCodeId == r.store.docs[r.outcome.id].qrCodeId;
  }

  /** A registered record shows on the map, in range, and starts out pending. */
  lemma RegisteredRecordIsOnMap(s: Store, f: LocationForm, checkNet: Transport, writeNet: Transport, now: Timestamp)
    requires OnSubmit(s, f, checkNet, writeNet, now).outcome.Registered?
    ensures var r := OnSubmit(s, f, checkNet, writeNet, now);
            var l := r.store.docs[r.outcome.id];
            && Coordinates.HasValidCoordinates(l)
            && Status.GetLocationStatus(l) == Status.Pending
            && l.latitude.n.x >= -90.0 && l.latitude.n.x <= 90.0
            && l.longitude.n.x >= -180.0 && l.longitude.n.x <= 180.0
            && Seqs.JsLength(l.qrCodeId) >= 6
  {
  }

  // ---------------------------------------------------------------- generateUploadUrl

  /** `generateUploadUrl`: the origin, then `/upload/`, then the QR code id. */
  function GenerateUploadUrl(origin: string, q: string): (r: string)
    ensures |r| == |origin| + 8 + |q|
    ensures r[..|origin|] == origin && r[|origin|..|origin| + 8] == "/upload/" && r[|origin| + 8..] == q
  {
    origin + "/upload/" + q
  }
}

=== FILE: common.dfy ===
/** Optional values and results shared by every module of the model. */
module Common {

  /** A value that may be absent: the model's stand-in for `T | null` and for an optional key. */
  datatype Option<+T> = None | Some(value: T)

  /** The outcome of an operation that can throw: a value, or the error it threw. */
  datatype Result<+T, +E> = Success(value: T) | Failure(error: E)
}

=== FILE: coordinates.dfy ===
/** The coordinate checks that decide which records may be placed on the map. */
module Coordinates {
  import opened Types

  /** JavaScript's global `isNaN`, restricted to numbers. */
  predicate IsNaN(n: Num)
  {
    n.NaN?
  }

  /** JavaScript's global `isFinite`, restricted to numbers. */
  predicate IsFinite(n: Num)
  {
    !n.NaN? && !n.PosInf? && !n.NegInf?
  }

  /** `isValidCoordinate`: the value is a number, is not NaN, and is finite. */
  function IsValidCoordinate(v: Value): (r: bool)
    ensures r <==> exists x :: v == Number(Finite(x))
    ensures v.Str? || v.Missing? ==> !r
  {
    v.Number? && !IsNaN(v.n) && IsFinite(v.n)
  }

  /** `hasValidCoordinates`: both latitude and longitude are valid coordinates. */
  function HasValidCoordinates(l: Location): (r: bool)
    ensures r <==> (exists x :: l.latitude == Number(Finite(x))) && (exists y :: l.longitude == Number(Finite(y)))
  {
    IsValidCoordinate(l.latitude) && IsValidCoordinate(l.longitude)
  }

  /** Only the coordinates take part in the decision: two records with the same latitude
      and longitude are both kept or both dropped. */
  lemma ValidityDependsOnlyOnCoordinates(a: Location, b: Location)
    requires a.latitude == b.latitude && a.longitude == b.longitude
    ensures HasValidCoordinates(a) == HasValidCoordinates(b)
  {
  }

  /** The check is about finiteness only: a longitude of 200 is accepted, while a NaN
      latitude or a missing longitude is rejected. */
  lemma ValidityExamples(l: Location)
    ensures HasValidCoordinates(l.(latitude := Number(Finite(28.6139)), longitude := Number(Finite(77.2090))))
    ensures HasValidCoordinates(l.(latitude := Number(Finite(28.6139)), longitude := Number(Finite(200.0))))
    ensures !HasValidCoordinates(l.(latitude := Number(NaN)))
    ensures !HasValidCoordinates(l.(longitude := Missing))
    ensures !HasValidCoordinates(l.(latitude := Str("28.6139")))
  {
  }
}

=== FILE: edit_page.dfy ===
/** The edit page: load a record by QR code id into a key/value buffer, replace single keys
    as inputs change, and write the buffer back by document id. */
module EditPage {
  import opened Common
  import opened Types
  import opened Repository
  import Coordinates

  /** The page state: the loaded record, the edit buffer, the captured document id, whether
      it is still loading, and whether it has navigated back to the map. */
  datatype EditState = EditState(
    location: Option<Location>,
    buffer: Patch,
    docId: Option<Id>,
    loading: bool,
    redirected: bool)

  /** Every key of a stored document. */
  const AllKeys: set<Key> := {QrCodeId, LocationName, Area, SupervisorName, ContactNumber,
                              Latitude, Longitude, CreatedAt, BeforePhoto, AfterPhoto}

  /** The keys the form has inputs for; `qrCodeId`, `createdAt` and the photos have none. */
  const EditableKeys: set<Key> := {LocationName, Area, SupervisorName, ContactNumber, Latitude, Longitude}

  /** `k` is a key `l` carries: a photo key only when that photo is present. */
  predicate Carries(l: Location, k: Key)
  {
    match k
    case BeforePhoto => l.beforePhoto.Some?
    case AfterPhoto => l.afterPhoto.Some?
    case _ => true
  }

  /** `setFormData(data)`: the buffer holds the record's keys and values. */
  function AsPatch(l: Location): (p: Patch)
    ensures forall k :: k in p <==> Carries(l, k)
    ensures forall k :: k in p ==> p[k] == Field(l, k)
  {
    map k | k in AllKeys && Carries(l, k) :: Field(l, k)
  }

  /** Writing back an unedited buffer leaves the record as it was. */
  lemma UneditedWriteBackIsIdentity(l: Location)
    ensures Merge(l, AsPatch(l)) == l
  {
    MergeFields(l, AsPatch(l));
    FieldsDetermineLocation(Merge(l, AsPatch(l)), l);
  }

  /** `fetchLocation`: with no route parameter nothing happens; a found record is loaded with
      its document id; a miss or a failing lookup loads nothing and goes back to the map. */
  function FetchLocation(page: EditState, s: Store, qrParam: Option<string>, net: Transport): (r: EditState)
    ensures qrParam.None? || qrParam == Some("") ==> r == page
    ensures qrParam.Some? && qrParam.value != "" ==> !r.loading
    ensures qrParam.Some? && qrParam.value != "" && net.Up? && HasQRCode(s, qrParam.value) ==>
              && r.location.Some?
              && r.location.value.id in s.docs && s.docs[r.location.value.id] == r.location.value
              && r.location.value.qrCodeId == qrParam.value
              && r.docId == Some(r.location.value.id)
              && r.buffer == AsPatch(r.location.value)
              && r.redirected == page.redirected
    ensures qrParam.Some? && qrParam.value != "" && !(net.Up? && HasQRCode(s, qrParam.value)) ==>
              r == page.(loading := false, redirected := true)
  {
    match qrParam
    case None => page
    case Some(q) =>
      if q == "" then page
      else
        match GetLocationByQRCode(s, q, net)
        case Success(Some(l)) => page.(location := Some(l), buffer := AsPatch(l), docId := Some(l.id), loading := false)
        case _ => page.(loading := false, redirected := true)
  }

  /** `handleChange` as written: the input's raw text replaces its key, coordinates included,
      so an edited coordinate is stored as a string. */
  function HandleChangeAsWritten(buffer: Patch, k: Key, raw: string): (r: Patch)
    requires k in EditableKeys
    ensures r.Keys == buffer.Keys + {k}
    ensures forall j :: j in buffer && j != k ==> r[j] == buffer[j]
    ensures k == Latitude || k == Longitude ==> r[k] == Coord(Str(raw))
    ensures k != Latitude && k != Longitude ==> r[k] == Text(raw)
  {
    if k == Latitude || k == Longitude then buffer[k := Coord(Str(raw))]
    else buffer[k := Text(raw)]
  }

  /** `handleChange` as evidently intended: a number input contributes its numeric reading
      (`valueAsNumber`, NaN when it does not parse), a text input its text. */
  function HandleChange(buffer: Patch, k: Key, raw: string, reading: Num): (r: Patch)
    requires k in EditableKeys
    ensures r.Keys == buffer.Keys + {k}
    ensures forall j :: j in buffer && j != k ==> r[j] == buffer[j]
    ensures k == Latitude || k == Longitude ==> r[k] == Coord(Number(reading))
    ensures k != Latitude && k != Longitude ==> r[k] == Text(raw)
  {
    if k == Latitude || k == Longitude then buffer[k := Coord(Number(reading))]
    else buffer[k := Text(raw)]
  }

  /** One change event: which input, its text, and its numeric reading. */
  datatype Change = Change(key: Key, raw: string, reading: Num)

  /** One change event handled by the program's handler (`asWritten`) or by the corrected one. */
  function Step(buffer: Patch, c: Change, asWritten: bool): (r: Patch)
    requires c.key in EditableKeys
    ensures r.Keys == buffer.Keys + {c.key}
    ensures forall j :: j in buffer && j != c.key ==> r[j] == buffer[j]
  {
    if asWritten then HandleChangeAsWritten(buffer, c.key, c.raw)
    else HandleChange(buffer, c.key, c.raw, c.reading)
  }

  /** A run of change events applied to the buffer in order, by either handler. */
  function ApplyChanges(buffer: Patch, changes: seq<Change>, asWritten: bool): Patch
    requires forall i :: 0 <= i < |changes| ==> changes[i].key in EditableKeys
    decreases |changes|
  {
    if |changes| == 0 then buffer
    else ApplyChanges(Step(buffer, changes[0], asWritten), changes[1..], asWritten)
  }

  /** No run of edits, under either handler, touches a key the form has no input for. */
  lemma {:induction false} ChangesKeepOtherKeys(buffer: Patch, changes: seq<Change>, asWritten: bool, k: Key)
    requires forall i :: 0 <= i < |changes| ==> changes[i].key in EditableKeys
    requires k !in EditableKeys
    ensures k in ApplyChanges(buffer, changes, asWritten) <==> k in buffer
    ensures k in buffer ==> ApplyChanges(buffer, changes, asWritten)[k] == buffer[k]
    decreases |changes|
  {
    if |changes| > 0 {
      ChangesKeepOtherKeys(Step(buffer, changes[0], asWritten), changes[1..], asWritten, k);
    }
  }

  /** `handleSubmit`: write the whole buffer to the captured document id, only when both the
      id and the loaded record are present; a successful write goes back to the map. */
  datatype Submitted = Submitted(store: Store, page: EditState)

  function HandleSubmit(page: EditState, s: Store, net: Transport): (r: Submitted)
    ensures !WillWrite(page, s, net) ==> r == Submitted(s, page)
    ensures WillWrite(page, s, net) ==> r.page == page.(redirected := true)
    ensures WillWrite(page, s, net) ==> r.store.docs.Keys == s.docs.Keys
    ensures WillWrite(page, s, net) ==> forall k :: k in s.docs && k != page.docId.value ==> r.store.docs[k] == s.docs[k]
    ensures WillWrite(page, s, net) ==> r.store.docs[page.docId.value] == Merge(s.docs[page.docId.value], page.buffer)
  {
    if page.docId.Some? && page.location.Some? then
      match UpdateLocation(s, page.docId.value, page.buffer, net)
      case Success(s') => Submitted(s', page.(redirected := true))
      case Failure(_) => Submitted(s, page)
    else Submitted(s, page)
  }

  /** The submit reaches the store and the write succeeds. */
  predicate WillWrite(page: EditState, s: Store, net: Transport)
  {
    page.docId.Some? && page.location.Some? && net.Up? && page.docId.value in s.docs
  }

  /** A page that has loaded `l`: the state `FetchLocation` leaves behind on a hit. */
  predicate LoadedWith(page: EditState, l: Location)
  {
    page.location == Some(l) && page.docId == Some(l.id) && page.buffer == AsPatch(l)
  }

  /** A successful submit leaves under each key the buffer's value when the buffer has the
      key, and the stored value otherwise. */
  lemma SubmittedField(page: EditState, s: Store, key: Key)
    requires page.docId.Some? && page.location.Some? && page.docId.value in s.docs
    ensures Field(HandleSubmit(page, s, Up).store.docs[page.docId.value], key) ==
              if key in page.buffer then page.buffer[key] else Field(s.docs[page.docId.value], key)
  {
    MergeFields(s.docs[page.docId.value], page.buffer);
  }

  /** `b` still holds, under every key the form has no input for, what the buffer of a page
      that loaded `l` held. */
  predicate KeepsUneditable(b: Patch, l: Location)
  {
    forall k :: k !in EditableKeys ==> (k in b <==> Carries(l, k)) && (k in b ==> b[k] == Field(l, k))
  }

  /** Whatever inputs change after a load, under either handler, the keys without an input
      keep their loaded values. */
  lemma EditsKeepUneditable(l: Location, changes: seq<Change>, asWritten: bool)
    requires forall i :: 0 <= i < |changes| ==> changes[i].key in EditableKeys
    ensures KeepsUneditable(ApplyChanges(AsPatch(l), changes, asWritten), l)
  {
    forall k | k !in EditableKeys
      ensures k in ApplyChanges(AsPatch(l), changes, asWritten) <==> Carries(l, k)
      ensures k in ApplyChanges(AsPatch(l), changes, asWritten) ==>
                ApplyChanges(AsPatch(l), changes, asWritten)[k] == Field(l, k)
    {
      ChangesKeepOtherKeys(AsPatch(l), changes, asWritten, k);
    }
  }

  /** Writing a buffer that kept `l`'s uneditable keys over the stored record `stored` leaves
      `l`'s QR code id and creation time, and each photo slot is `l`'s photo if it had one,
      otherwise the stored one. */
  lemma UneditableKeysSurviveMerge(l: Location, stored: Location, b: Patch)
    requires KeepsUneditable(b, l)
    ensures var l' := Merge(stored, b);
            && l'.qrCodeId == l.qrCodeId && l'.createdAt == l.createdAt
            && l'.beforePhoto == (if l.beforePhoto.Some? then l.beforePhoto else stored.beforePhoto)
            && l'.afterPhoto == (if l.afterPhoto.Some? then l.afterPhoto else stored.afterPhoto)
  {
    MergeFields(stored, b);
    var l' := Merge(stored, b);
    assert QrCodeId !in EditableKeys && CreatedAt !in EditableKeys;
    assert BeforePhoto !in EditableKeys && AfterPhoto !in EditableKeys;
    assert Field(l', QrCodeId) == Field(l, QrCodeId);
    assert Field(l', CreatedAt) == Field(l, CreatedAt);
    assert Field(l', BeforePhoto) == if Carries(l, BeforePhoto) then Field(l, BeforePhoto) else Field(stored, BeforePhoto);
    assert Field(l', AfterPhoto) == if Carries(l, AfterPhoto) then Field(l, AfterPhoto) else Field(stored, AfterPhoto);
  }

  /** Load, any run of edits under either handler, submit: the QR code id and the creation
      time are the loaded ones, and each photo slot is the loaded photo if there was one at
      load time, otherwise whatever the store held at submit time. A photo re-uploaded into
      a slot that was filled at load time is therefore reverted by the save. */
  lemma IdentityKeysSurviveEdit(page: EditState, l: Location, changes: seq<Change>, asWritten: bool, s: Store)
    requires LoadedWith(page, l) && l.id in s.docs
    requires forall i :: 0 <= i < |changes| ==> changes[i].key in EditableKeys
    ensures var edited := page.(buffer := ApplyChanges(page.buffer, changes, asWritten));
            var l' := HandleSubmit(edited, s, Up).store.docs[l.id];
            && l'.qrCodeId == l.qrCodeId && l'.createdAt == l.createdAt
            && l'.beforePhoto == (if l.beforePhoto.Some? then l.beforePhoto else s.docs[l.id].beforePhoto)
            && l'.afterPhoto == (if l.afterPhoto.Some? then l.afterPhoto else s.docs[l.id].afterPhoto)
  {
    EditsKeepUneditable(l, changes, asWritten);
    UneditableKeysSurviveMerge(l, s.docs[l.id], ApplyChanges(page.buffer, changes, asWritten));
  }

  /** As written, a photo re-uploaded while the page was open into a slot that was filled at
      load time is lost: the save writes the loaded photo back over it. */
  lemma SaveRevertsReupload(page: EditState, l: Location, changes: seq<Change>, asWritten: bool, s: Store)
    requires LoadedWith(page, l) && l.id in s.docs
    requires forall i :: 0 <= i < |changes| ==> changes[i].key in EditableKeys
    requires l.beforePhoto.Some? && s.docs[l.id].beforePhoto != l.beforePhoto
    ensures var edited := page.(buffer := ApplyChanges(page.buffer, changes, asWritten));
            var l' := HandleSubmit(edited, s, Up).store.docs[l.id];
            l'.beforePhoto == l.beforePhoto && l'.beforePhoto != s.docs[l.id].beforePhoto
  {
    IdentityKeysSurviveEdit(page, l, changes, asWritten, s);
  }

  /** The buffer restricted to the keys the form has inputs for. */
  function EditedPart(b: Patch): (r: Patch)
    ensures r.Keys == b.Keys * EditableKeys
    ensures forall k :: k in r ==> r[k] == b[k]
  {
    map k | k in b.Keys && k in EditableKeys :: b[k]
  }

  /** `handleSubmit` as evidently intended: the same gate and navigation, but the update
      carries only the keys the form edits. */
  function HandleSubmitEdits(page: EditState, s: Store, net: Transport): (r: Submitted)
    ensures !WillWrite(page, s, net) ==> r == Submitted(s, page)
    ensures WillWrite(page, s, net) ==> r.page == page.(redirected := true)
    ensures WillWrite(page, s, net) ==> r.store.docs.Keys == s.docs.Keys
    ensures WillWrite(page, s, net) ==> forall k :: k in s.docs && k != page.docId.value ==> r.store.docs[k] == s.docs[k]
    ensures WillWrite(page, s, net) ==> r.store.docs[page.docId.value] == Merge(s.docs[page.docId.value], EditedPart(page.buffer))
  {
    if page.docId.Some? && page.location.Some? then
      match UpdateLocation(s, page.docId.value, EditedPart(page.buffer), net)
      case Success(s') => Submitted(s', page.(redirected := true))
      case Failure(_) => Submitted(s, page)
    else Submitted(s, page)
  }

  /** Merging only the edited keys takes each edited key present in the buffer from it and
      keeps every other key as stored. */
  lemma MergeEditedField(stored: Location, b: Patch, k: Key)
    ensures Field(Merge(stored, EditedPart(b)), k) ==
              if k in EditableKeys && k in b then b[k] else Field(stored, k)
  {
    MergeFields(stored, EditedPart(b));
  }

  /** Merging only the edited keys keeps the stored QR code id, creation time and photos. */
  lemma MergeEditedPart(stored: Location, b: Patch)
    ensures var l' := Merge(stored, EditedPart(b));
            && l'.qrCodeId == stored.qrCodeId && l'.createdAt == stored.createdAt
            && l'.beforePhoto == stored.beforePhoto && l'.afterPhoto == stored.afterPhoto
  {
    MergeEditedField(stored, b, QrCodeId);
    MergeEditedField(stored, b, CreatedAt);
    MergeEditedField(stored, b, BeforePhoto);
    MergeEditedField(stored, b, AfterPhoto);
  }

  /** With the corrected submit, a photo uploaded while the page was open survives the save,
      and so do the QR code id and creation time stored at submit time; the edited keys take
      the buffer's values. */
  lemma SaveKeepsReupload(page: EditState, s: Store)
    requires WillWrite(page, s, Up)
    ensures var id := page.docId.value;
            var l' := HandleSubmitEdits(page, s, Up).store.docs[id];
            && l'.qrCodeId == s.docs[id].qrCodeId && l'.createdAt == s.docs[id].createdAt
            && l'.beforePhoto == s.docs[id].beforePhoto && l'.afterPhoto == s.docs[id].afterPhoto
            && forall k :: k in EditableKeys && k in page.buffer ==> Field(l', k) == page.buffer[k]
  {
    var stored := s.docs[page.docId.value];
    MergeEditedPart(stored, page.buffer);
    forall k | k in EditableKeys && k in page.buffer
      ensures Field(Merge(stored, EditedPart(page.buffer)), k) == page.buffer[k]
    {
      MergeEditedField(stored, page.buffer, k);
    }
  }

  /** As written, editing the latitude of a loaded record and saving takes the record off the
      map: the stored latitude is now a string. */
  lemma EditedLatitudeLeavesMap(page: EditState, l: Location, s: Store, raw: string)
    requires LoadedWith(page, l) && l.id in s.docs
    ensures var edited := page.(buffer := HandleChangeAsWritten(page.buffer, Latitude, raw));
            var l' := HandleSubmit(edited, s, Up).store.docs[l.id];
            l'.latitude == Str(raw) && !Coordinates.HasValidCoordinates(l')
  {
    var edited := page.(buffer := HandleChangeAsWritten(page.buffer, Latitude, raw));
    var l' := HandleSubmit(edited, s, Up).store.docs[l.id];
    assert Field(l', Latitude) == Coord(Str(raw));
  }

  /** With the intended handler, editing a coordinate of a loaded record that was on the map
      to a finite number and saving keeps it on the map. */
  lemma EditedCoordinateStaysOnMap(page: EditState, l: Location, s: Store, k: Key, raw: string, x: real)
    requires LoadedWith(page, l) && l.id in s.docs
    requires Coordinates.HasValidCoordinates(l)
    requires k == Latitude || k == Longitude
    ensures var edited := page.(buffer := HandleChange(page.buffer, k, raw, Finite(x)));
            var l' := HandleSubmit(edited, s, Up).store.docs[l.id];
            Field(l', k) == Coord(Number(Finite(x))) && Coordinates.HasValidCoordinates(l')
  {
    var edited := page.(buffer := HandleChange(page.buffer, k, raw, Finite(x)));
    var l' := HandleSubmit(edited, s, Up).store.docs[l.id];
    assert Field(l', Latitude) == edited.buffer[Latitude];
    assert Field(l', Longitude) == edited.buffer[Longitude];
  }
}

=== FILE: lifecycle.dfy ===
/** How repository operations move a record through the completion states. */
module Lifecycle {
  import opened Common
  import opened Types
  import opened Repository
  import opened Status

  /** A freshly created record has no photos, so it is pending. */
  lemma CreatedRecordIsPending(s: Store, data: NewLocation, now: Timestamp)
    ensures var c := CreateLocation(s, data, now, Up).value;
            GetLocationStatus(c.store.docs[c.id]) == Pending
  {
  }

  /** Uploading the before photo of a pending record makes it partial; uploading the after
      photo next makes it complete. */
  lemma UploadBeforeThenAfter(s: Store, id: Id, urlBefore: string, urlAfter: string, t1: Timestamp, t2: Timestamp)
    requires id in s.docs && GetLocationStatus(s.docs[id]) == Pending
    ensures UploadPhoto(s, id, Before, urlBefore, t1, Up).Success?
    ensures var s1 := UploadPhoto(s, id, Before, urlBefore, t1, Up).value;
            && GetLocationStatus(s1.docs[id]) == Partial
            && UploadPhoto(s1, id, After, urlAfter, t2, Up).Success?
            && GetLocationStatus(UploadPhoto(s1, id, After, urlAfter, t2, Up).value.docs[id]) == Complete
  {
  }

  /** An upload never makes a record less complete, and a record with both photos stays
      complete under any re-upload. */
  lemma UploadNeverRegresses(s: Store, id: Id, t: PhotoType, url: string, now: Timestamp)
    requires id in s.docs
    ensures var l' := UploadPhoto(s, id, t, url, now, Up).value.docs[id];
            && GetLocationStatus(l') != Pending
            && (GetLocationStatus(s.docs[id]) == Complete ==> GetLocationStatus(l') == Complete)
  {
  }
}

=== FILE: map_query.dfy ===
/** The query pipeline behind the map and the data table: drop records without valid
    coordinates, then an optional text search, then an optional status filter. */
module MapQuery {
  import opened Common
  import opened Types
  import Seqs
  import opened Coordinates
  import opened Status

  /** The set held by the page after `fetchLocations`: the fetched records that have valid
      coordinates. If the fetch throws, the page keeps what it had. */
  function FetchLocations<E>(current: seq<Location>, fetched: Result<seq<Location>, E>): (r: seq<Location>)
    ensures fetched.Failure? ==> r == current
    ensures fetched.Success? ==> Seqs.IsSubseq(r, fetched.value)
    ensures fetched.Success? ==> forall l :: l in r <==> l in fetched.value && HasValidCoordinates(l)
    ensures fetched.Success? ==>
      forall l :: multiset(r)[l] == if HasValidCoordinates(l) then multiset(fetched.value)[l] else 0
  {
    match fetched
    case Failure(_) => current
    case Success(data) => Seqs.Filter(data, HasValidCoordinates)
  }

  /** The search test: the lower-cased term occurs in the lower-cased name, area,
      supervisor or QR code id. */
  predicate MatchesSearch(l: Location, term: string)
  {
    var t := Seqs.Lower(term);
    || Seqs.Includes(Seqs.Lower(l.locationName), t)
    || Seqs.Includes(Seqs.Lower(l.area), t)
    || Seqs.Includes(Seqs.Lower(l.supervisorName), t)
    || Seqs.Includes(Seqs.Lower(l.qrCodeId), t)
  }

  /** The search test in terms of substrings rather than the scan. */
  lemma MatchesSearchIsSubstring(l: Location, term: string)
    ensures MatchesSearch(l, term) <==>
      || Seqs.IsSubstring(Seqs.Lower(term), Seqs.Lower(l.locationName))
      || Seqs.IsSubstring(Seqs.Lower(term), Seqs.Lower(l.area))
      || Seqs.IsSubstring(Seqs.Lower(term), Seqs.Lower(l.supervisorName))
      || Seqs.IsSubstring(Seqs.Lower(term), Seqs.Lower(l.qrCodeId))
  {
    var t := Seqs.Lower(term);
    Seqs.IncludesIsSubstring(Seqs.Lower(l.locationName), t);
    Seqs.IncludesIsSubstring(Seqs.Lower(l.area), t);
    Seqs.IncludesIsSubstring(Seqs.Lower(l.supervisorName), t);
    Seqs.IncludesIsSubstring(Seqs.Lower(l.qrCodeId), t);
  }

  /** The search stage: an empty term is falsy and skips the stage. */
  function SearchStage(locations: seq<Location>, term: string): (r: seq<Location>)
    ensures Seqs.IsSubseq(r, locations)
    ensures forall l :: l in r <==> l in locations && (term == "" || MatchesSearch(l, term))
    ensures forall l ::
              multiset(r)[l] == if term == "" || MatchesSearch(l, term) then multiset(locations)[l] else 0
  {
    if term == "" then
      Seqs.SubseqReflexive(locations);
      locations
    else Seqs.Filter(locations, l => MatchesSearch(l, term))
  }

  /** The status stage: `all` skips the stage; otherwise the filter's own switch decides,
      and it keeps exactly the records the classifier puts in the chosen status. */
  function StatusStage(locations: seq<Location>, f: StatusFilter): (r: seq<Location>)
    ensures Seqs.IsSubseq(r, locations)
    ensures forall l :: l in r <==> l in locations && (f.All? || GetLocationStatus(l) == f.status)
    ensures forall l ::
              multiset(r)[l] == if f.All? || GetLocationStatus(l) == f.status then multiset(locations)[l] else 0
  {
    if f.All? then
      Seqs.SubseqReflexive(locations);
      locations
    else
      FilterAgreesWithStatusEverywhere(f);
      Seqs.Filter(locations, l => FilterKeeps(f, l))
  }

  lemma FilterAgreesWithStatusEverywhere(f: StatusFilter)
    ensures forall l :: FilterKeeps(f, l) <==> (f.All? || GetLocationStatus(l) == f.status)
  {
    forall l ensures FilterKeeps(f, l) <==> (f.All? || GetLocationStatus(l) == f.status) {
      FilterAgreesWithStatus(f, l);
    }
  }

  /** What a record must satisfy to be visible, stated with the classifier. */
  predicate Visible(l: Location, term: string, f: StatusFilter)
  {
    && (term == "" || MatchesSearch(l, term))
    && (f.All? || GetLocationStatus(l) == f.status)
  }

  /** The filter effect: search first, then status. The result is an order-preserving
      subsequence of the loaded set holding exactly its visible records, every copy kept. */
  function ApplyFilters(locations: seq<Location>, term: string, f: StatusFilter): (r: seq<Location>)
    ensures Seqs.IsSubseq(r, locations)
    ensures forall l :: l in r <==> l in locations && Visible(l, term, f)
    ensures forall l :: multiset(r)[l] == if Visible(l, term, f) then multiset(locations)[l] else 0
    ensures term == "" && f.All? ==> r == locations
  {
    var searched := SearchStage(locations, term);
    var r := StatusStage(searched, f);
    Seqs.SubseqTransitive(r, searched, locations);
    r
  }

  /** Running the filter effect again on its own output, with the same inputs, changes nothing. */
  lemma ApplyFiltersIdempotent(locations: seq<Location>, term: string, f: StatusFilter)
    ensures ApplyFilters(ApplyFilters(locations, term, f), term, f) == ApplyFilters(locations, term, f)
  {
    var search := l => MatchesSearch(l, term);
    var status := l => FilterKeeps(f, l);
    if term != "" && !f.All? {
      var once := Seqs.Filter(Seqs.Filter(locations, search), status);
      Seqs.FilterIdempotent(locations, search);
      Seqs.FilterIdempotent(Seqs.Filter(locations, search), status);
      calc {
        Seqs.Filter(Seqs.Filter(once, search), status);
        { Seqs.FilterCommutes(Seqs.Filter(locations, search), status, search); }
        Seqs.Filter(Seqs.Filter(Seqs.Filter(Seqs.Filter(locations, search), search), status), status);
        Seqs.Filter(Seqs.Filter(Seqs.Filter(locations, search), status), status);
        once;
      }
    } else if term != "" {
      Seqs.FilterIdempotent(locations, search);
    } else if !f.All? {
      Seqs.FilterIdempotent(locations, status);
    }
  }

  /** The two stages commute: filtering by status first gives the same result. */
  lemma StagesCommute(locations: seq<Location>, term: string, f: StatusFilter)
    ensures StatusStage(SearchStage(locations, term), f) == SearchStage(StatusStage(locations, f), term)
  {
    if term != "" && !f.All? {
      Seqs.FilterCommutes(locations, l => MatchesSearch(l, term), l => FilterKeeps(f, l));
    }
  }

  /** Searching for "NGM" with the pending filter, over one pending and one complete record
      whose QR code ids both contain it, yields only the pending one. */
  lemma SearchAndStatusExample(a: Location, b: Location)
    requires a.qrCodeId == "NGMSC00083" && a.beforePhoto.None? && a.afterPhoto.None?
    requires b.qrCodeId == "NGMSC00099" && b.beforePhoto.Some? && b.afterPhoto.Some?
    ensures ApplyFilters([a, b], "NGM", Only(Pending)) == [a]
  {
    QrIdMatches(a, "NGM", "NGMSC00083");
    var r := ApplyFilters([a, b], "NGM", Only(Pending));
    assert Visible(a, "NGM", Only(Pending));
    assert !Visible(b, "NGM", Only(Pending));
    assert a in r && b !in r;
    assert Seqs.IsSubseq(r, [a, b]);
    SubseqOfPair(r, a, b);
  }

  /** A record whose QR code id starts with the search term matches the search. */
  lemma QrIdMatches(l: Location, term: string, id: string)
    requires l.qrCodeId == id && |term| <= |id|
    requires Seqs.Lower(id)[..|term|] == Seqs.Lower(term)
    ensures MatchesSearch(l, term)
  {
  }

  /** The only subsequence of `[a, b]` that holds `a` and not `b` is `[a]`. */
  lemma SubseqOfPair(r: seq<Location>, a: Location, b: Location)
    requires Seqs.IsSubseq(r, [a, b]) && a in r && b !in r
    ensures r == [a]
  {
    assert [a, b][1..] == [b];
    assert r[0] == a by {
      if r[0] != a {
        SubseqOfSingleton(r, b);
      }
    }
    var rest := r[1..];
    assert r == [a] + rest;
    assert b !in rest;
    SubseqOfSingleton(rest, b);
  }

  /** A subsequence of `[b]` without `b` is empty. */
  lemma SubseqOfSingleton(x: seq<Location>, b: Location)
    requires Seqs.IsSubseq(x, [b]) && b !in x
    ensures x == []
  {
    assert [b][1..] == [];
  }
}

=== FILE: repository.dfy ===
/** The location repository as operations on an abstract document store. Each operation takes
    the store and returns the new one; a transport failure is an explicit input. */
module Repository {
  import opened Common
  import opened Types

  /** The `locations` collection: documents by id, and the next id the store will hand out. */
  datatype StoreState = StoreState(docs: map<Id, Location>, nextId: Id)

  /** Every stored record carries its own document id, and every id was handed out already. */
  ghost predicate WellFormed(s: StoreState)
  {
    forall k :: k in s.docs ==> k < s.nextId && s.docs[k].id == k
  }

  type Store = s: StoreState | WellFormed(s) witness StoreState(map[], 0)

  /** Whether the store answers the next request, or the request throws. */
  datatype Transport = Up | Down

  /** What a repository call can throw. */
  datatype StoreError = Unavailable | NotFound

  /** Some stored record has this QR code id. */
  ghost predicate HasQRCode(s: Store, q: string)
  {
    exists k :: k in s.docs && s.docs[k].qrCodeId == q
  }

  /** No two stored records share a QR code id. */
  ghost predicate UniqueQRCodes(s: Store)
  {
    forall j, k :: j in s.docs && k in s.docs && j != k ==> s.docs[j].qrCodeId != s.docs[k].qrCodeId
  }

  // ---------------------------------------------------------------- createLocation

  /** `l` is the record written for `data` at time `now`: the supplied fields, the creation
      time, and no photos. */
  predicate IsCreatedFrom(l: Location, data: NewLocation, now: Timestamp)
  {
    && l.qrCodeId == data.qrCodeId
    && l.locationName == data.locationName
    && l.area == data.area
    && l.supervisorName == data.supervisorName
    && l.contactNumber == data.contactNumber
    && l.latitude == data.latitude
    && l.longitude == data.longitude
    && l.createdAt == now
    && l.beforePhoto.None?
    && l.afterPhoto.None?
  }

  /** The store after a create, and the id of the new document. */
  datatype Created = Created(store: Store, id: Id)

  /** `createLocation`: add one record under a fresh id. It does not look at the QR code ids
      already stored. */
  function CreateLocation(s: Store, data: NewLocation, now: Timestamp, net: Transport): (r: Result<Created, StoreError>)
    ensures net.Down? <==> r.Failure?
    ensures r.Failure? ==> r.error == Unavailable
    ensures r.Success? ==> r.value.id !in s.docs
    ensures r.Success? ==> r.value.store.docs.Keys == s.docs.Keys + {r.value.id}
    ensures r.Success? ==> IsCreatedFrom(r.value.store.docs[r.value.id], data, now)
    ensures r.Success? ==> forall k :: k in s.docs ==> r.value.store.docs[k] == s.docs[k]
  {
    if net.Down? then Failure(Unavailable)
    else
      var id := s.nextId;
      var l := Location(id, data.qrCodeId, data.locationName, data.area, data.supervisorName,
                        data.contactNumber, data.latitude, data.longitude, now, None, None);
      Success(Created(StoreState(s.docs[id := l], id + 1), id))
  }

  // ---------------------------------------------------------------- getLocationById

  /** `getLocationById`: the stored record, or `null` when there is none. */
  function GetLocationById(s: Store, id: Id, net: Transport): (r: Result<Option<Location>, StoreError>)
    ensures net.Down? <==> r.Failure?
    ensures r.Failure? ==> r.error == Unavailable
    ensures r.Success? ==> (r.value.Some? <==> id in s.docs)
    ensures r.Success? && r.value.Some? ==> r.value.value == s.docs[id] && r.value.value.id == id
  {
    if net.Down? then Failure(Unavailable)
    else if id in s.docs then Success(Some(s.docs[id]))
    else Success(None)
  }

  // ---------------------------------------------------------------- getLocationByQRCode

  /** The equality query on `qrCodeId`, scanned in ascending document-id order from `from`:
      the first matching id. */
  function FirstMatchFrom(s: Store, q: string, from: Id): (r: Option<Id>)
    ensures r.Some? ==> from <= r.value && r.value in s.docs && s.docs[r.value].qrCodeId == q
    ensures r.Some? ==> forall k :: from <= k < r.value && k in s.docs ==> s.docs[k].qrCodeId != q
    ensures r.None? ==> forall k :: from <= k && k in s.docs ==> s.docs[k].qrCodeId != q
    decreases s.nextId - from
  {
    if from >= s.nextId then None
    else if from in s.docs && s.docs[from].qrCodeId == q then Some(from)
    else FirstMatchFrom(s, q, from + 1)
  }

  /** `getLocationByQRCode`: `null` when nothing matches, otherwise the first match, which is
      the matching record with the least document id. */
  function GetLocationByQRCode(s: Store, q: string, net: Transport): (r: Result<Option<Location>, StoreError>)
    ensures net.Down? <==> r.Failure?
    ensures r.Failure? ==> r.error == Unavailable
    ensures r.Success? ==> (r.value.None? <==> !HasQRCode(s, q))
    ensures r.Success? && r.value.Some? ==>
              var l := r.value.value;
              && l.id in s.docs && s.docs[l.id] == l && l.qrCodeId == q
              && forall k :: k in s.docs && s.docs[k].qrCodeId == q ==> l.id <= k
  {
    if net.Down? then Failure(Unavailable)
    else
      match FirstMatchFrom(s, q, 0)
      case None => Success(None)
      case Some(k) => Success(Some(s.docs[k]))
  }

  /** With unique QR code ids, the lookup by QR code returns the one record that has it. */
  lemma LookupFindsTheUniqueRecord(s: Store, q: string, k: Id)
    requires UniqueQRCodes(s)
    requires k in s.docs && s.docs[k].qrCodeId == q
    ensures GetLocationByQRCode(s, q, Up) == Success(Some(s.docs[k]))
  {
  }

  // ---------------------------------------------------------------- checkQRCodeExists

  /** `checkQRCodeExists`: the same equality query; a failing query answers `false`, so the
      uniqueness check fails open. */
  function CheckQRCodeExists(s: Store, q: string, net: Transport): (r: bool)
    ensures r <==> net.Up? && HasQRCode(s, q)
  {
    match GetLocationByQRCode(s, q, net)
    case Failure(_) => false
    case Success(found) => found.Some?
  }

  // ---------------------------------------------------------------- getAllLocations

  /** The sort order of `orderBy('createdAt', 'desc')`, ties broken by document id. */
  predicate Newer(a: Location, b: Location)
  {
    a.createdAt > b.createdAt || (a.createdAt == b.createdAt && a.id > b.id)
  }

  /** Records in strictly descending sort order. */
  ghost predicate NewestFirst(r: seq<Location>)
  {
    forall i, j :: 0 <= i < j < |r| ==> Newer(r[i], r[j])
  }

  /** Places `x` into a list already in descending sort order. */
  function InsertByAge(r: seq<Location>, x: Location): (r': seq<Location>)
    requires NewestFirst(r)
    requires forall y :: y in r ==> y.id != x.id
    ensures NewestFirst(r')
    ensures forall y :: y in r' <==> y in r || y == x
    ensures |r'| == |r| + 1
  {
    if |r| == 0 then [x]
    else if Newer(x, r[0]) then [x] + r
    else
      assert forall y :: y in r[1..] ==> y in r;
      var rest := InsertByAge(r[1..], x);
      assert forall y :: y in rest ==> Newer(r[0], y) by {
        forall y | y in rest ensures Newer(r[0], y) {
          if y != x {
            var i :| 0 <= i < |r[1..]| && r[1..][i] == y;
            assert r[i + 1] == y;
          }
        }
      }
      var r' := [r[0]] + rest;
      assert forall i, j :: 0 <= i < j < |r'| ==> Newer(r'[i], r'[j]) by {
        forall i, j | 0 <= i < j < |r'| ensures Newer(r'[i], r'[j]) {
          assert r'[j] == rest[j - 1];
          if i > 0 {
            assert r'[i] == rest[i - 1];
          } else {
            assert r'[j] in rest;
          }
        }
      }
      r'
  }

  /** `getAllLocations`: every stored record exactly once, newest first. */
  method GetAllLocations(s: Store, net: Transport) returns (r: Result<seq<Location>, StoreError>)
    ensures net.Down? <==> r.Failure?
    ensures r.Failure? ==> r.error == Unavailable
    ensures r.Success? ==> NewestFirst(r.value)
    ensures r.Success? ==> |r.value| == |s.docs|
    ensures r.Success? ==> forall l :: l in r.value <==> l.id in s.docs && s.docs[l.id] == l
  {
    if net.Down? {
      return Failure(Unavailable);
    }
    var out: seq<Location> := [];
    var pending := s.docs.Keys;
    while pending != {}
      invariant pending <= s.docs.Keys
      invariant NewestFirst(out)
      invariant forall l :: l in out <==> l.id in s.docs.Keys - pending && s.docs[l.id] == l
      invariant |out| == |s.docs.Keys - pending|
      decreases pending
    {
      var k :| k in pending;
      assert s.docs.Keys - (pending - {k}) == (s.docs.Keys - pending) + {k};
      out := InsertByAge(out, s.docs[k]);
      pending := pending - {k};
    }
    assert s.docs.Keys - pending == s.docs.Keys;
    return Success(out);
  }

  /** A newest-first list is fixed by its elements: the listing is unique. */
  lemma {:induction false} NewestFirstUnique(a: seq<Location>, b: seq<Location>)
    requires NewestFirst(a) && NewestFirst(b)
    requires forall l :: l in a <==> l in b
    ensures a == b
  {
    assert |b| == 0 || b[0] in b;
    if |a| > 0 {
      assert a[0] in b;
      var i :| 0 <= i < |a| && a[i] == b[0];
      var j :| 0 <= j < |b| && b[j] == a[0];
      assert a[0] == b[0] by {
        assert i > 0 ==> Newer(a[0], b[0]);
        assert j > 0 ==> Newer(b[0], a[0]);
      }
      forall l ensures l in a[1..] <==> l in b[1..] {
        if l in a[1..] {
          var i :| 0 <= i < |a[1..]| && a[1..][i] == l;
          assert a[i + 1] == l && Newer(a[0], l);
          assert l in a;
          assert l in b;
          var j :| 0 <= j < |b| && b[j] == l;
          assert j != 0;
          assert b[1..][j - 1] == l;
        }
        if l in b[1..] {
          var j :| 0 <= j < |b[1..]| && b[1..][j] == l;
          assert b[j + 1] == l && Newer(b[0], l);
          assert l in b;
          assert l in a;
          var i :| 0 <= i < |a| && a[i] == l;
          assert i != 0;
          assert a[1..][i - 1] == l;
        }
      }
      NewestFirstUnique(a[1..], b[1..]);
      assert a == [a[0]] + a[1..] && b == [b[0]] + b[1..];
    }
  }

  /** Three records created at `t1 < t2 < t3` are listed as `[t3, t2, t1]`. */
  lemma ListingOrderExample(r: seq<Location>, l1: Location, l2: Location, l3: Location)
    requires l1.createdAt < l2.createdAt < l3.createdAt
    requires NewestFirst(r)
    requires forall l :: l in r <==> l == l1 || l == l2 || l == l3
    ensures r == [l3, l2, l1]
  {
    NewestFirstUnique(r, [l3, l2, l1]);
  }

  // ---------------------------------------------------------------- updateLocation

  /** The value `l` ends up holding under `k` once `p` is merged in. */
  function MergedValue(l: Location, p: Patch, k: Key): FieldValue
  {
    if k in p then p[k] else Field(l, k)
  }

  /** The record after `updateDoc` with a partial record: keys present in `p` take its values. */
  function Merge(l: Location, p: Patch): Location
  {
    Location(
      l.id,
      MergedValue(l, p, QrCodeId).text,
      MergedValue(l, p, LocationName).text,
      MergedValue(l, p, Area).text,
      MergedValue(l, p, SupervisorName).text,
      MergedValue(l, p, ContactNumber).text,
      MergedValue(l, p, Latitude).coord,
      MergedValue(l, p, Longitude).coord,
      MergedValue(l, p, CreatedAt).time,
      MergedValue(l, p, BeforePhoto).photo,
      MergedValue(l, p, AfterPhoto).photo)
  }

  /** Merging keeps the id, takes every key present in `p` from `p`, and keeps every other key. */
  lemma MergeFields(l: Location, p: Patch)
    ensures Merge(l, p).id == l.id
    ensures forall k :: Field(Merge(l, p), k) == if k in p then p[k] else Field(l, k)
  {
    forall k ensures Field(Merge(l, p), k) == MergedValue(l, p, k) {
      match k
      case QrCodeId =>
      case LocationName =>
      case Area =>
      case SupervisorName =>
      case ContactNumber =>
      case Latitude =>
      case Longitude =>
      case CreatedAt =>
      case BeforePhoto =>
      case AfterPhoto =>
    }
  }

  /** Merging the same partial record twice is the same as merging it once. */
  lemma MergeIdempotent(l: Location, p: Patch)
    ensures Merge(Merge(l, p), p) == Merge(l, p)
  {
    MergeFields(l, p);
    MergeFields(Merge(l, p), p);
    FieldsDetermineLocation(Merge(Merge(l, p), p), Merge(l, p));
  }

  /** `updateLocation`: overwrite exactly the keys in `p` on one existing record; updating a
      missing document fails. */
  function UpdateLocation(s: Store, id: Id, p: Patch, net: Transport): (r: Result<Store, StoreError>)
    ensures r.Success? <==> net.Up? && id in s.docs
    ensures net.Down? ==> r == Failure(Unavailable)
    ensures net.Up? && id !in s.docs ==> r == Failure(NotFound)
    ensures r.Success? ==> r.value.docs.Keys == s.docs.Keys && r.value.nextId == s.nextId
    ensures r.Success? ==> forall k :: k in s.docs && k != id ==> r.value.docs[k] == s.docs[k]
    ensures r.Success? ==> r.value.docs[id].id == id
    ensures r.Success? ==> forall key :: Field(r.value.docs[id], key) == if key in p then p[key] else Field(s.docs[id], key)
  {
    if net.Down? then Failure(Unavailable)
    else if id !in s.docs then Failure(NotFound)
    else
      MergeFields(s.docs[id], p);
      Success(StoreState(s.docs[id := Merge(s.docs[id], p)], s.nextId))
  }

  // ---------------------------------------------------------------- uploadPhoto

  /** The one-key partial record an upload writes. */
  function PhotoPatch(t: PhotoType, ph: Photo): Patch
  {
    map[SlotKey(t) := Slot(Some(ph))]
  }

  /** Merging a photo patch sets that slot and nothing else. */
  lemma MergePhotoPatch(l: Location, t: PhotoType, ph: Photo)
    ensures t.Before? ==> Merge(l, PhotoPatch(t, ph)) == l.(beforePhoto := Some(ph))
    ensures t.After? ==> Merge(l, PhotoPatch(t, ph)) == l.(afterPhoto := Some(ph))
  {
    MergeFields(l, PhotoPatch(t, ph));
    var expected := if t.Before? then l.(beforePhoto := Some(ph)) else l.(afterPhoto := Some(ph));
    FieldsDetermineLocation(Merge(l, PhotoPatch(t, ph)), expected);
  }

  /** The metadata half of `uploadPhoto`: after the blob write yielded `url`, set the slot of
      the photo type to `{url, uploadedAt: now}` through an update of that one key. */
  function UploadPhoto(s: Store, id: Id, t: PhotoType, url: string, now: Timestamp, net: Transport): (r: Result<Store, StoreError>)
    ensures r.Success? <==> net.Up? && id in s.docs
    ensures r.Success? ==> r.value.docs.Keys == s.docs.Keys
    ensures r.Success? ==> forall k :: k in s.docs && k != id ==> r.value.docs[k] == s.docs[k]
    ensures r.Success? && t.Before? ==> r.value.docs[id] == s.docs[id].(beforePhoto := Some(Photo(url, now)))
    ensures r.Success? && t.After? ==> r.value.docs[id] == s.docs[id].(afterPhoto := Some(Photo(url, now)))
  {
    if net.Up? && id in s.docs then
      MergePhotoPatch(s.docs[id], t, Photo(url, now));
      UpdateLocation(s, id, PhotoPatch(t, Photo(url, now)), net)
    else
      UpdateLocation(s, id, PhotoPatch(t, Photo(url, now)), net)
  }

  // ---------------------------------------------------------------- deleteLocation

  /** `deleteLocation`: remove the document. Deleting an id that is not stored succeeds and
      changes nothing; the id is never handed out again. */
  function DeleteLocation(s: Store, id: Id, net: Transport): (r: Result<Store, StoreError>)
    ensures net.Down? <==> r.Failure?
    ensures r.Failure? ==> r.error == Unavailable
    ensures r.Success? ==> r.value.docs.Keys == s.docs.Keys - {id} && r.value.nextId == s.nextId
    ensures r.Success? ==> forall k :: k in s.docs && k != id ==> r.value.docs[k] == s.docs[k]
  {
    if net.Down? then Failure(Unavailable)
    else Success(StoreState(s.docs - {id}, s.nextId))
  }

  /** After a delete, looking the id up yields `null`, and a later create never reuses it. */
  lemma DeleteThenGet(s: Store, id: Id, data: NewLocation, now: Timestamp)
    requires id in s.docs
    ensures DeleteLocation(s, id, Up).Success?
    ensures GetLocationById(DeleteLocation(s, id, Up).value, id, Up) == Success(None)
    ensures CreateLocation(DeleteLocation(s, id, Up).value, data, now, Up).value.id != id
  {
  }
}

=== FILE: seqs.dfy ===
/** Sequence helpers standing in for `Array.prototype.filter`, `String.prototype.includes`
    and `String.prototype.toLowerCase`. */
module Seqs {

  /** `a` is an order-preserving subsequence of `b` (greedy leftmost matching). */
  ghost predicate IsSubseq<T>(a: seq<T>, b: seq<T>)
    decreases |a| + |b|
  {
    if |a| == 0 then true
    else if |b| == 0 then false
    else if a[0] == b[0] then IsSubseq(a[1..], b[1..])
    else IsSubseq(a, b[1..])
  }

  /** Every sequence is a subsequence of itself. */
  lemma {:induction false} SubseqReflexive<T>(s: seq<T>)
    ensures IsSubseq(s, s)
  {
    if |s| > 0 {
      SubseqReflexive(s[1..]);
    }
  }

  /** Prepending an element to the larger sequence keeps a subsequence. */
  lemma {:induction false} SubseqExtend<T>(x: seq<T>, c: seq<T>)
    requires |c| > 0 && IsSubseq(x, c[1..])
    ensures IsSubseq(x, c)
    decreases |c|, 0
  {
    if |x| > 0 && x[0] == c[0] {
      SubseqDropHead(x, c[1..]);
    }
  }

  /** Dropping the first element of a subsequence keeps a subsequence. */
  lemma {:induction false} SubseqDropHead<T>(x: seq<T>, t: seq<T>)
    requires |x| > 0 && IsSubseq(x, t)
    ensures IsSubseq(x[1..], t)
    decreases |t|, 1
  {
    if |t| > 0 {
      if x[0] == t[0] {
        SubseqExtend(x[1..], t);
      } else {
        SubseqDropHead(x, t[1..]);
        SubseqExtend(x[1..], t);
      }
    }
  }

  /** Subsequences compose. */
  lemma {:induction false} SubseqTransitive<T>(a: seq<T>, b: seq<T>, c: seq<T>)
    requires IsSubseq(a, b) && IsSubseq(b, c)
    ensures IsSubseq(a, c)
    decreases |c|
  {
    if |a| > 0 {
      assert |b| > 0 && |c| > 0;
      if b[0] == c[0] {
        if a[0] == b[0] {
          SubseqTransitive(a[1..], b[1..], c[1..]);
        } else {
          SubseqTransitive(a, b[1..], c[1..]);
        }
      } else {
        SubseqTransitive(a, b, c[1..]);
        SubseqExtend(a, c);
      }
    }
  }

  /** The elements of `s` that satisfy `p`, in their original order. */
  function Filter<T(!new)>(s: seq<T>, p: T -> bool): (r: seq<T>)
    ensures |r| <= |s|
    ensures forall x :: x in r <==> x in s && p(x)
    ensures forall x :: multiset(r)[x] == if p(x) then multiset(s)[x] else 0
    ensures IsSubseq(r, s)
  {
    if |s| == 0 then []
    else
      assert s == [s[0]] + s[1..];
      var rest := Filter(s[1..], p);
      if p(s[0]) then
        assert ([s[0]] + rest)[1..] == rest;
        [s[0]] + rest
      else
        rest
  }

  /** Filtering twice with the same predicate changes nothing. */
  lemma {:induction false} FilterIdempotent<T(!new)>(s: seq<T>, p: T -> bool)
    ensures Filter(Filter(s, p), p) == Filter(s, p)
  {
    if |s| > 0 {
      FilterIdempotent(s[1..], p);
      if p(s[0]) {
        assert ([s[0]] + Filter(s[1..], p))[1..] == Filter(s[1..], p);
      }
    }
  }

  /** Two filters commute: the order in which conjunctive filters run does not matter. */
  lemma {:induction false} FilterCommutes<T(!new)>(s: seq<T>, p: T -> bool, q: T -> bool)
    ensures Filter(Filter(s, p), q) == Filter(Filter(s, q), p)
  {
    if |s| > 0 {
      FilterCommutes(s[1..], p, q);
      var fp := Filter(s[1..], p);
      var fq := Filter(s[1..], q);
      if p(s[0]) {
        assert ([s[0]] + fp)[1..] == fp;
      }
      if q(s[0]) {
        assert ([s[0]] + fq)[1..] == fq;
      }
    }
  }

  /** If every element satisfies exactly one of three predicates, the three filtered
      lengths add up to the length of the sequence. */
  lemma {:induction false} FilterPartitionSum<T(!new)>(s: seq<T>, a: T -> bool, b: T -> bool, c: T -> bool)
    requires forall x :: x in s ==> (a(x) && !b(x) && !c(x)) || (!a(x) && b(x) && !c(x)) || (!a(x) && !b(x) && c(x))
    ensures |Filter(s, a)| + |Filter(s, b)| + |Filter(s, c)| == |s|
  {
    if |s| > 0 {
      assert forall x :: x in s[1..] ==> x in s;
      FilterPartitionSum(s[1..], a, b, c);
    }
  }

  /** `needle` occurs in `haystack` starting at position `i`. */
  ghost predicate OccursAt(needle: string, haystack: string, i: int)
  {
    0 <= i <= |haystack| - |needle| && haystack[i..i + |needle|] == needle
  }

  /** `needle` occurs as a contiguous block of `haystack`. */
  ghost predicate IsSubstring(needle: string, haystack: string)
  {
    exists i :: OccursAt(needle, haystack, i)
  }

  /** The scan behind `haystack.includes(needle)`: try every start position from the left. */
  function Includes(haystack: string, needle: string): bool
    decreases |haystack|
  {
    if needle <= haystack then true
    else if |haystack| == 0 then false
    else Includes(haystack[1..], needle)
  }

  /** The scan finds `needle` exactly when it is a substring of `haystack`. */
  lemma {:induction false} IncludesIsSubstring(haystack: string, needle: string)
    ensures Includes(haystack, needle) <==> IsSubstring(needle, haystack)
    decreases |haystack|
  {
    if needle <= haystack {
      assert OccursAt(needle, haystack, 0);
    } else if |haystack| == 0 {
    } else {
      var tail := haystack[1..];
      IncludesIsSubstring(tail, needle);
      if IsSubstring(needle, tail) {
        var i :| OccursAt(needle, tail, i);
        assert haystack[i + 1..i + 1 + |needle|] == tail[i..i + |needle|];
        assert OccursAt(needle, haystack, i + 1);
      }
      if IsSubstring(needle, haystack) {
        var i :| OccursAt(needle, haystack, i);
        assert i != 0;
        assert tail[i - 1..i - 1 + |needle|] == haystack[i..i + |needle|];
        assert OccursAt(needle, tail, i - 1);
      }
    }
  }

  /** ASCII lower-casing of one character. */
  function LowerChar(c: char): char
  {
    if 'A' <= c <= 'Z' then (c as int + 32) as char else c
  }

  /** ASCII lower-casing of a string, character by character. */
  function Lower(s: string): (r: string)
    ensures |r| == |s|
  {
    seq(|s|, i requires 0 <= i < |s| => LowerChar(s[i]))
  }

  /** The number of UTF-16 code units of one character: two for a character outside the
      Basic Multilingual Plane, one otherwise. */
  function CodeUnits(c: char): nat
  {
    if c as int >= 0x1_0000 then 2 else 1
  }

  /** `String.prototype.length`: the number of UTF-16 code units, which is at least the number
      of characters and at most twice it. */
  function JsLength(s: string): (r: nat)
    ensures |s| <= r <= 2 * |s|
  {
    if |s| == 0 then 0 else CodeUnits(s[0]) + JsLength(s[1..])
  }

  /** Every character of `s` lies in the Basic Multilingual Plane. */
  predicate AllBmp(s: string)
  {
    forall i :: 0 <= i < |s| ==> s[i] as int < 0x1_0000
  }

  /** The JavaScript length equals the number of characters exactly when no character lies
      outside the Basic Multilingual Plane. */
  lemma {:induction false} JsLengthIsCharCount(s: string)
    ensures JsLength(s) == |s| <==> AllBmp(s)
  {
    if |s| > 0 {
      JsLengthIsCharCount(s[1..]);
      assert forall i :: 1 <= i < |s| ==> s[i] == s[1..][i - 1];
    }
  }
}

=== FILE: status.dfy ===
/** The three-state completion status derived from photo presence, the status filter and
    the statistics counters of the map page. */
module Status {
  import opened Common
  import opened Types
  import Seqs

  datatype Status = Pending | Partial | Complete

  /** The status filter of the map page: everything, or one status. */
  datatype StatusFilter = All | Only(status: Status)

  /** `!!location.beforePhoto`: a photo object is always truthy. */
  predicate HasBefore(l: Location)
  {
    l.beforePhoto.Some?
  }

  /** `!!location.afterPhoto`. */
  predicate HasAfter(l: Location)
  {
    l.afterPhoto.Some?
  }

  /** `getLocationStatus`: both photos make it complete, either one makes it partial. */
  function GetLocationStatus(l: Location): (r: Status)
    ensures r == Complete <==> HasBefore(l) && HasAfter(l)
    ensures r == Partial <==> HasBefore(l) != HasAfter(l)
    ensures r == Pending <==> !HasBefore(l) && !HasAfter(l)
  {
    if HasBefore(l) && HasAfter(l) then Complete
    else if HasBefore(l) || HasAfter(l) then Partial
    else Pending
  }

  /** The status never looks at photo urls or upload times, nor at any other field. */
  lemma StatusDependsOnlyOnPresence(a: Location, b: Location)
    requires a.beforePhoto.Some? == b.beforePhoto.Some?
    requires a.afterPhoto.Some? == b.afterPhoto.Some?
    ensures GetLocationStatus(a) == GetLocationStatus(b)
  {
  }

  /** The predicate of the status-filter effect, with its own switch over the filter value. */
  function FilterKeeps(f: StatusFilter, l: Location): bool
  {
    var hasBefore := HasBefore(l);
    var hasAfter := HasAfter(l);
    match f
    case Only(Pending) => !hasBefore && !hasAfter
    case Only(Partial) => (hasBefore && !hasAfter) || (!hasBefore && hasAfter)
    case Only(Complete) => hasBefore && hasAfter
    case All => true
  }

  /** The filter predicate agrees with the classifier: filter `s` keeps exactly the records
      whose status is `s`, and `all` keeps every record. */
  lemma FilterAgreesWithStatus(f: StatusFilter, l: Location)
    ensures FilterKeeps(f, l) <==> (f.All? || GetLocationStatus(l) == f.status)
  {
  }

  /** The predicates of the three statistics cards, written as in the page. */
  predicate CountsAsComplete(l: Location)
  {
    l.beforePhoto.Some? && l.afterPhoto.Some?
  }

  predicate CountsAsPartial(l: Location)
  {
    (l.beforePhoto.Some? && !l.afterPhoto.Some?) || (!l.beforePhoto.Some? && l.afterPhoto.Some?)
  }

  predicate CountsAsPending(l: Location)
  {
    !l.beforePhoto.Some? && !l.afterPhoto.Some?
  }

  /** The figures shown on the statistics cards. */
  datatype Stats = Stats(total: nat, complete: nat, partial: nat, pending: nat)

  /** The statistics cards: `locations.length` and the three `filter(...).length` counts. */
  function ComputeStats(locations: seq<Location>): (r: Stats)
    ensures r.complete + r.partial + r.pending == r.total == |locations|
    ensures r.complete == |Seqs.Filter(locations, l => GetLocationStatus(l) == Complete)|
    ensures r.partial == |Seqs.Filter(locations, l => GetLocationStatus(l) == Partial)|
    ensures r.pending == |Seqs.Filter(locations, l => GetLocationStatus(l) == Pending)|
  {
    Seqs.FilterPartitionSum(locations, CountsAsComplete, CountsAsPartial, CountsAsPending);
    SameFilter(locations, CountsAsComplete, l => GetLocationStatus(l) == Complete);
    SameFilter(locations, CountsAsPartial, l => GetLocationStatus(l) == Partial);
    SameFilter(locations, CountsAsPending, l => GetLocationStatus(l) == Pending);
    Stats(
      |locations|,
      |Seqs.Filter(locations, CountsAsComplete)|,
      |Seqs.Filter(locations, CountsAsPartial)|,
      |Seqs.Filter(locations, CountsAsPending)|)
  }

  /** Predicates that agree on every element filter the same way. */
  lemma {:induction false} SameFilter(s: seq<Location>, p: Location -> bool, q: Location -> bool)
    requires forall l :: p(l) == q(l)
    ensures Seqs.Filter(s, p) == Seqs.Filter(s, q)
  {
    if |s| > 0 {
      SameFilter(s[1..], p, q);
    }
  }
}

=== FILE: types.dfy ===
/** The shapes of `Location` and `PhotoUpload`, with JavaScript's dynamic values made explicit. */
module Types {
  import opened Common

  /** A document identifier. The store hands them out and never reuses one. */
  type Id = nat

  /** A point in time. `createdAt` may arrive as a `Date` or as a wrapper with `toDate()`;
      the model normalises both, once, to this single type. */
  type Timestamp = int

  /** A JavaScript number: a finite value, not-a-number, or one of the two infinities. */
  datatype Num = Finite(x: real) | NaN | PosInf | NegInf

  /** A dynamically typed field value. Although the declared type says `number`, a stored
      coordinate may be a string or may be missing altogether. */
  datatype Value = Number(n: Num) | Str(s: string) | Missing

  /** The metadata of one uploaded photo. */
  datatype Photo = Photo(url: string, uploadedAt: Timestamp)

  /** The `type` of a `PhotoUpload`: exactly `'before'` or `'after'`. */
  datatype PhotoType = Before | After

  /** A location record as read from the store, `id` included. */
  datatype Location = Location(
    id: Id,
    qrCodeId: string,
    locationName: string,
    area: string,
    supervisorName: string,
    contactNumber: string,
    latitude: Value,
    longitude: Value,
    createdAt: Timestamp,
    beforePhoto: Option<Photo>,
    afterPhoto: Option<Photo>)

  /** The argument of `createLocation`: a location without `id`, `createdAt` and photos. */
  datatype NewLocation = NewLocation(
    qrCodeId: string,
    locationName: string,
    area: string,
    supervisorName: string,
    contactNumber: string,
    latitude: Value,
    longitude: Value)

  /** The stored keys of a location document. */
  datatype Key =
    | QrCodeId | LocationName | Area | SupervisorName | ContactNumber
    | Latitude | Longitude | CreatedAt | BeforePhoto | AfterPhoto

  /** The value held under one key. */
  datatype FieldValue = Text(text: string) | Coord(coord: Value) | Time(time: Timestamp) | Slot(photo: Option<Photo>)

  /** The key as it is spelled in the stored document. */
  function KeyName(k: Key): string
  {
    match k
    case QrCodeId => "qrCodeId"
    case LocationName => "locationName"
    case Area => "area"
    case SupervisorName => "supervisorName"
    case ContactNumber => "contactNumber"
    case Latitude => "latitude"
    case Longitude => "longitude"
    case CreatedAt => "createdAt"
    case BeforePhoto => "beforePhoto"
    case AfterPhoto => "afterPhoto"
  }

  /** Key names are distinct, so a key is identified by its name. */
  lemma KeyNameInjective(k1: Key, k2: Key)
    ensures KeyName(k1) == KeyName(k2) <==> k1 == k2
  {
  }

  /** `v` has the type the declared shape gives key `k`; a photo key, when written, holds a photo. */
  predicate Fits(k: Key, v: FieldValue)
  {
    match k
    case Latitude | Longitude => v.Coord?
    case CreatedAt => v.Time?
    case BeforePhoto | AfterPhoto => v.Slot? && v.photo.Some?
    case _ => v.Text?
  }

  /** A `Partial<Location>`: some keys, each holding a value of its declared type. */
  type Patch = p: map<Key, FieldValue> | forall k :: k in p ==> Fits(k, p[k]) witness map[]

  /** The value a location holds under key `k`. */
  function Field(l: Location, k: Key): FieldValue
  {
    match k
    case QrCodeId => Text(l.qrCodeId)
    case LocationName => Text(l.locationName)
    case Area => Text(l.area)
    case SupervisorName => Text(l.supervisorName)
    case ContactNumber => Text(l.contactNumber)
    case Latitude => Coord(l.latitude)
    case Longitude => Coord(l.longitude)
    case CreatedAt => Time(l.createdAt)
    case BeforePhoto => Slot(l.beforePhoto)
    case AfterPhoto => Slot(l.afterPhoto)
  }

  /** A location is determined by its `id` and the values under its keys. */
  lemma FieldsDetermineLocation(a: Location, b: Location)
    requires a.id == b.id
    requires forall k :: Field(a, k) == Field(b, k)
    ensures a == b
  {
    assert Field(a, QrCodeId) == Field(b, QrCodeId);
    assert Field(a, LocationName) == Field(b, LocationName);
    assert Field(a, Area) == Field(b, Area);
    assert Field(a, SupervisorName) == Field(b, SupervisorName);
    assert Field(a, ContactNumber) == Field(b, ContactNumber);
    assert Field(a, Latitude) == Field(b, Latitude);
    assert Field(a, Longitude) == Field(b, Longitude);
    assert Field(a, CreatedAt) == Field(b, CreatedAt);
    assert Field(a, BeforePhoto) == Field(b, BeforePhoto);
    assert Field(a, AfterPhoto) == Field(b, AfterPhoto);
  }

  /** The spelling of a photo type: `'before'` or `'after'`. */
  function TypeName(t: PhotoType): string
  {
    match t
    case Before => "before"
    case After => "after"
  }

  /** The key a photo upload writes. */
  function SlotKey(t: PhotoType): (k: Key)
    ensures k == BeforePhoto || k == AfterPhoto
    ensures t.Before? <==> k == BeforePhoto
  {
    match t
    case Before => BeforePhoto
    case After => AfterPhoto
  }

  /** The computed key name `${type}Photo` names exactly the slot of that photo type. */
  lemma SlotNameMatchesKey(t: PhotoType)
    ensures TypeName(t) + "Photo" == KeyName(SlotKey(t))
  {
  }
}

=== FILE: upload_route.dfy ===
/** The `/upload/:qrcodeid` route, applied to the link `generateUploadUrl` prints. The browser's
    URL parser (the basic URL parser of the WHATWG URL Standard) rewrites the text after
    `/upload/`; React Router then matches the resulting path against the route pattern and
    hands the upload page its parameter. */
module UploadRoute {
  import opened Common
  import Seqs
  import Admin

  // ---------------------------------------------------------------- the URL parser

  /** A character the URL parser keeps: it deletes every tab, line feed and carriage return
      wherever it occurs. */
  predicate KeptByParser(c: char)
  {
    c != '\t' && c != '\n' && c != '\r'
  }

  /** A character the URL parser strips from the end of its input: a C0 control or a space. */
  predicate ControlOrSpace(c: char)
  {
    c as int <= 0x20
  }

  /** The input with its trailing C0 controls and spaces removed. */
  function StripTrailing(s: string): (r: string)
    ensures r <= s
    ensures r == [] || !ControlOrSpace(r[|r| - 1])
    ensures forall i :: |r| <= i < |s| ==> ControlOrSpace(s[i])
  {
    if s == [] || !ControlOrSpace(s[|s| - 1]) then s else StripTrailing(s[..|s| - 1])
  }

  /** The URL parser's deletion of every tab, line feed and carriage return. */
  function DropTabsAndNewlines(s: string): (r: string)
    ensures |r| <= |s|
    ensures forall c :: c in r <==> c in s && KeptByParser(c)
    ensures r == s <==> forall i :: 0 <= i < |s| ==> KeptByParser(s[i])
  {
    if s == [] then []
    else if KeptByParser(s[0]) then [s[0]] + DropTabsAndNewlines(s[1..])
    else DropTabsAndNewlines(s[1..])
  }

  /** The deletion keeps the other characters in order and as often as they occur. */
  lemma {:induction false} DropTabsAndNewlinesKeepsOrder(s: string)
    ensures Seqs.IsSubseq(DropTabsAndNewlines(s), s)
    ensures forall c :: multiset(DropTabsAndNewlines(s))[c] == if KeptByParser(c) then multiset(s)[c] else 0
  {
    if s != [] {
      var rest := DropTabsAndNewlines(s[1..]);
      DropTabsAndNewlinesKeepsOrder(s[1..]);
      assert s == [s[0]] + s[1..];
      if KeptByParser(s[0]) {
        assert DropTabsAndNewlines(s) == [s[0]] + rest;
        assert ([s[0]] + rest)[1..] == rest;
      } else {
        assert DropTabsAndNewlines(s) == rest;
        Seqs.SubseqExtend(rest, s);
      }
    }
  }

  /** The deletion works piecewise: deleting from a concatenation concatenates the results. */
  lemma {:induction false} DropTabsAndNewlinesConcat(x: string, y: string)
    ensures DropTabsAndNewlines(x + y) == DropTabsAndNewlines(x) + DropTabsAndNewlines(y)
  {
    if x == [] {
      assert x + y == y;
    } else {
      var xy := x + y;
      assert xy[0] == x[0] && xy[1..] == x[1..] + y;
      var tail := DropTabsAndNewlines(x[1..]);
      DropTabsAndNewlinesConcat(x[1..], y);
      if KeptByParser(x[0]) {
        assert DropTabsAndNewlines(xy) == [x[0]] + (tail + DropTabsAndNewlines(y));
        assert DropTabsAndNewlines(x) == [x[0]] + tail;
      } else {
        assert DropTabsAndNewlines(xy) == tail + DropTabsAndNewlines(y);
        assert DropTabsAndNewlines(x) == tail;
      }
    }
  }

  /** In an http(s) URL the parser reads a backslash as a path separator. */
  function BackslashAsSlash(s: string): (r: string)
    ensures |r| == |s|
    ensures forall i :: 0 <= i < |s| ==> r[i] == if s[i] == '\\' then '/' else s[i]
  {
    seq(|s|, i requires 0 <= i < |s| => if s[i] == '\\' then '/' else s[i])
  }

  /** What the URL parser reads after `/upload/`, when the origin before it is a serialized
      origin (which holds none of the characters rewritten here): trailing controls and spaces
      stripped, tabs and newlines deleted, backslashes read as slashes. */
  function ParsedTail(rest: string): (r: string)
    ensures |r| <= |rest|
  {
    BackslashAsSlash(DropTabsAndNewlines(StripTrailing(rest)))
  }

  /** A character that ends the path: `?` starts the query, `#` the fragment. */
  predicate EndsPath(c: char)
  {
    c == '?' || c == '#'
  }

  /** The path part of the parsed text: everything before the first `?` or `#`. */
  function PathPart(t: string): (r: string)
    ensures r <= t
    ensures forall i :: 0 <= i < |r| ==> !EndsPath(r[i])
    ensures |r| < |t| ==> EndsPath(t[|r|])
  {
    if t == [] || EndsPath(t[0]) then [] else [t[0]] + PathPart(t[1..])
  }

  /** The path split at every `/` into its segments, in order, empty ones included. */
  function Segments(p: string): (r: seq<string>)
    ensures |r| >= 1
    ensures forall k :: 0 <= k < |r| ==> '/' !in r[k] && |r[k]| <= |p|
    ensures forall k :: 0 <= k < |r| && |r[k]| == |p| ==> r == [p]
    ensures forall k, c :: 0 <= k < |r| && c in r[k] ==> c in p
    ensures '/' !in p ==> r == [p]
  {
    if p == [] then [[]]
    else
      assert p == [p[0]] + p[1..];
      var rest := Segments(p[1..]);
      if p[0] == '/' then [[]] + rest
      else [[p[0]] + rest[0]] + rest[1..]
  }

  /** Segments joined back together with a `/` between neighbours. */
  function Join(segs: seq<string>): string
    requires |segs| >= 1
  {
    if |segs| == 1 then segs[0] else segs[0] + "/" + Join(segs[1..])
  }

  /** Splitting loses nothing: joining the segments gives the path back. */
  lemma {:induction false} SegmentsJoin(p: string)
    ensures Join(Segments(p)) == p
  {
    if p != [] {
      var rest := Segments(p[1..]);
      SegmentsJoin(p[1..]);
      if p[0] == '/' {
        assert Join(Segments(p)) == [] + "/" + Join(rest);
      } else if |rest| == 1 {
        assert Join(Segments(p)) == [p[0]] + rest[0];
      } else {
        assert Join(rest) == rest[0] + "/" + Join(rest[1..]);
        assert Join(Segments(p)) == ([p[0]] + rest[0]) + "/" + Join(rest[1..]);
      }
    }
  }

  /** A single-dot segment: `.` or its percent-encoded spelling, in any letter case. */
  predicate IsSingleDot(s: string)
  {
    var l := Seqs.Lower(s);
    l == "." || l == "%2e"
  }

  /** A double-dot segment: `..` or a percent-encoded spelling of it, in any letter case. */
  predicate IsDoubleDot(s: string)
  {
    var l := Seqs.Lower(s);
    l == ".." || l == ".%2e" || l == "%2e." || l == "%2e%2e"
  }

  /** The parser's path state, segment by segment: a double-dot segment removes the last
      segment so far, a single-dot segment adds nothing, and either one as the final segment
      leaves an empty final segment; every other segment is appended. */
  function Resolve(path: seq<string>, segs: seq<string>): (r: seq<string>)
    ensures forall x :: x in r ==>
              x in path || (x in segs && !IsSingleDot(x) && !IsDoubleDot(x)) || x == []
    decreases |segs|
  {
    if segs == [] then path
    else
      var ending: seq<string> := if |segs| == 1 then [[]] else [];
      var next :=
        if IsDoubleDot(segs[0]) then (if path == [] then [] else path[..|path| - 1]) + ending
        else if IsSingleDot(segs[0]) then path + ending
        else path + [segs[0]];
      assert forall x :: x in next ==>
               x in path || (x == segs[0] && !IsSingleDot(x) && !IsDoubleDot(x)) || x == [];
      Resolve(next, segs[1..])
  }

  /** Without dot segments, resolution appends every segment unchanged. */
  lemma {:induction false} ResolveWithoutDots(path: seq<string>, segs: seq<string>)
    requires forall k :: 0 <= k < |segs| ==> !IsSingleDot(segs[k]) && !IsDoubleDot(segs[k])
    ensures Resolve(path, segs) == path + segs
    decreases |segs|
  {
    if segs != [] {
      ResolveWithoutDots(path + [segs[0]], segs[1..]);
      assert (path + [segs[0]]) + segs[1..] == path + segs;
    }
  }

  /** A segment that is no dot segment is appended to the path. */
  lemma ResolvePlainStep(path: seq<string>, s: string, rest: seq<string>)
    requires !IsSingleDot(s) && !IsDoubleDot(s)
    ensures Resolve(path, [s] + rest) == Resolve(path + [s], rest)
  {
    var segs := [s] + rest;
    assert segs[0] == s && segs[1..] == rest;
  }

  /** A `.` segment followed by more segments leaves the path as it is. */
  lemma ResolveSingleDotStep(path: seq<string>, s: string, rest: seq<string>)
    requires IsSingleDot(s) && !IsDoubleDot(s) && rest != []
    ensures Resolve(path, [s] + rest) == Resolve(path, rest)
  {
    var segs := [s] + rest;
    assert segs[0] == s && segs[1..] == rest;
    assert path + [] == path;
  }

  /** A `..` segment followed by more segments removes the last segment of the path, if any. */
  lemma ResolveDoubleDotStep(path: seq<string>, s: string, rest: seq<string>)
    requires IsDoubleDot(s) && rest != []
    ensures Resolve(path, [s] + rest) == Resolve(if path == [] then [] else path[..|path| - 1], rest)
  {
    var segs := [s] + rest;
    assert segs[0] == s && segs[1..] == rest;
    var shorter := if path == [] then [] else path[..|path| - 1];
    assert shorter + [] == shorter;
  }

  // ---------------------------------------------------------------- the router

  /** React Router's pattern for `/upload/:qrcodeid`, matched to the end and ignoring letter
      case: the segment `upload`, then one non-empty segment, then nothing but trailing
      slashes. The parameter is that one segment. */
  function RouteParam(path: seq<string>): Option<string>
  {
    if |path| >= 2 && Seqs.Lower(path[0]) == "upload" && path[1] != []
       && forall k :: 2 <= k < |path| ==> path[k] == []
    then Some(path[1])
    else None
  }

  /** The route applied to the path `/upload/` followed by the parsed path text `p`. */
  function RouteOfPath(p: string): Option<string>
  {
    RouteParam(Resolve([], ["upload"] + Segments(p)))
  }

  /** The segment the route hands the upload page must be one non-empty segment that is not
      a dot segment and holds no `/`, `?` or `#`. */
  predicate SingleSegment(seg: string)
  {
    && |seg| > 0 && !IsSingleDot(seg) && !IsDoubleDot(seg)
    && forall i :: 0 <= i < |seg| ==> seg[i] != '/' && !EndsPath(seg[i])
  }

  /** The route applied to a link the browser opens, for a link made of the origin, `/upload/`
      and more text, as every generated link is. */
  function UploadRouteSegment(origin: string, url: string): (r: Option<string>)
    ensures r.Some? ==> origin + "/upload/" <= url && SingleSegment(r.value)
  {
    var prefix := origin + "/upload/";
    if prefix <= url then
      var p := PathPart(ParsedTail(url[|prefix|..]));
      RouteOfPathIsSegment(p);
      RouteOfPath(p)
    else None
  }

  /** What the route hands the page from a path free of `?` and `#` is one plain segment of it. */
  lemma RouteOfPathIsSegment(p: string)
    requires forall i :: 0 <= i < |p| ==> !EndsPath(p[i])
    ensures RouteOfPath(p).Some? ==> SingleSegment(RouteOfPath(p).value)
  {
    var segs := Segments(p);
    var r := RouteOfPath(p);
    if r.Some? {
      var path := Resolve([], ["upload"] + segs);
      assert r.value == path[1] && r.value in path;
      UploadIsPlain();
      if r.value in segs {
        var k :| 0 <= k < |segs| && segs[k] == r.value;
        forall i | 0 <= i < |r.value|
          ensures r.value[i] != '/' && !EndsPath(r.value[i])
        {
          var c := r.value[i];
          assert c in segs[k];
          assert c in p;
          var j :| 0 <= j < |p| && p[j] == c;
        }
      } else {
        assert r.value == "upload";
      }
    }
  }

  /** The word `upload` is already lower case and is not a dot segment. */
  lemma UploadIsPlain()
    ensures Seqs.Lower("upload") == "upload"
    ensures !IsSingleDot("upload") && !IsDoubleDot("upload")
  {
    var u := "upload";
    assert forall i :: 0 <= i < |u| ==> Seqs.Lower(u)[i] == u[i];
  }

  // ---------------------------------------------------------------- the generated link

  /** A QR code id the parser leaves alone and the route takes as one segment: non-empty, not
      a dot segment, with no `/`, `?`, `#`, `\`, tab or newline, and not ending in a control
      character or a space. */
  predicate RoutesUnchanged(q: string)
  {
    && SingleSegment(q)
    && (forall i :: 0 <= i < |q| ==> q[i] != '\\' && KeptByParser(q[i]))
    && !ControlOrSpace(q[|q| - 1])
  }

  /** The parser leaves a text alone, and the route can take it as one segment, exactly when
      the text routes unchanged. */
  lemma ParsedTailFixes(q: string)
    ensures ParsedTail(q) == q && SingleSegment(q) <==> RoutesUnchanged(q)
  {
    var stripped := StripTrailing(q);
    var kept := DropTabsAndNewlines(stripped);
    if RoutesUnchanged(q) {
      assert stripped == q;
      assert BackslashAsSlash(q) == q;
    }
    if ParsedTail(q) == q && SingleSegment(q) {
      assert |stripped| == |q|;
      assert stripped == q;
      forall i | 0 <= i < |q|
        ensures kept[i] == q[i] && q[i] != '\\'
      {
      }
      assert kept == q;
    }
  }

  /** A text that is one plain segment reaches the upload page as it is. */
  lemma SegmentRoutes(q: string)
    requires SingleSegment(q)
    ensures RouteOfPath(q) == Some(q)
  {
    UploadIsPlain();
    assert '/' !in q;
    ResolveWithoutDots([], ["upload", q]);
    assert ["upload"] + Segments(q) == ["upload", q];
  }

  /** The route sees, in a generated link, the path part of what the parser makes of the QR
      code id. */
  lemma RouteOfGeneratedLink(origin: string, q: string)
    ensures UploadRouteSegment(origin, Admin.GenerateUploadUrl(origin, q)) ==
              RouteOfPath(PathPart(ParsedTail(q)))
  {
    var url := Admin.GenerateUploadUrl(origin, q);
    assert origin + "/upload/" <= url;
    assert url[|origin| + 8..] == q;
  }

  /** The generated link reaches the upload page with the QR code id as its route parameter
      exactly when the parser leaves the id alone: the id is not percent-encoded, so a
      separator, a backslash, a tab or newline, a trailing space or control, or a dot segment
      changes it. */
  lemma UploadUrlRoundTrip(origin: string, q: string)
    ensures UploadRouteSegment(origin, Admin.GenerateUploadUrl(origin, q)) == Some(q) <==> RoutesUnchanged(q)
  {
    RouteOfGeneratedLink(origin, q);
    ParsedTailFixes(q);
    if RoutesUnchanged(q) {
      assert PathPart(q) == q;
      SegmentRoutes(q);
    }
    if UploadRouteSegment(origin, Admin.GenerateUploadUrl(origin, q)) == Some(q) {
      RoutedIdIsWholeText(q);
    }
  }

  /** If the route hands the page the id itself, the parser changed nothing in it. */
  lemma RoutedIdIsWholeText(q: string)
    requires RouteOfPath(PathPart(ParsedTail(q))) == Some(q)
    ensures RoutesUnchanged(q)
  {
    var t := ParsedTail(q);
    var p := PathPart(t);
    var segs := Segments(p);
    var path := Resolve([], ["upload"] + segs);
    assert q == path[1] && q in path;
    RouteOfPathIsSegment(p);
    if q in segs {
      var k :| 0 <= k < |segs| && segs[k] == q;
      assert |p| == |t| == |q|;
      assert t == q;
      ParsedTailFixes(q);
    } else {
      assert q == "upload";
      UploadRoutesUnchanged();
    }
  }

  /** The word `upload` itself routes unchanged. */
  lemma UploadRoutesUnchanged()
    ensures RoutesUnchanged("upload")
  {
    UploadIsPlain();
  }

  // ---------------------------------------------------------------- rewritten ids

  /** The parser's rewriting of a text that starts with a plain piece leaves that piece in
      front. */
  lemma ParsedTailAppend(x: string, y: string)
    requires x != [] && !ControlOrSpace(x[|x| - 1])
    requires forall i :: 0 <= i < |x| ==> x[i] != '\\' && KeptByParser(x[i])
    ensures ParsedTail(x + y) == x + ParsedTail(y)
  {
    StripTrailingAppend(x, y);
    var s := StripTrailing(y);
    DropTabsAndNewlinesAppend(x, s);
    BackslashAsSlashAppend(x, DropTabsAndNewlines(s));
  }

  /** Deleting tabs and newlines from a text that starts with a piece free of them keeps
      that piece. */
  lemma DropTabsAndNewlinesAppend(x: string, y: string)
    requires forall i :: 0 <= i < |x| ==> KeptByParser(x[i])
    ensures DropTabsAndNewlines(x + y) == x + DropTabsAndNewlines(y)
  {
    DropTabsAndNewlinesConcat(x, y);
  }

  /** Reading backslashes as slashes in a text that starts with a piece free of them keeps
      that piece. */
  lemma BackslashAsSlashAppend(x: string, y: string)
    requires forall i :: 0 <= i < |x| ==> x[i] != '\\'
    ensures BackslashAsSlash(x + y) == x + BackslashAsSlash(y)
  {
    var l := BackslashAsSlash(x + y);
    var r := x + BackslashAsSlash(y);
    assert |l| == |r|;
    forall i | 0 <= i < |l|
      ensures l[i] == r[i]
    {
      if i >= |x| {
        assert (x + y)[i] == y[i - |x|];
      }
    }
  }

  /** Stripping the end of a text that starts with a piece ending in a visible character
      keeps that piece. */
  lemma {:induction false} StripTrailingAppend(x: string, y: string)
    requires x != [] && !ControlOrSpace(x[|x| - 1])
    ensures StripTrailing(x + y) == x + StripTrailing(y)
    decreases |y|
  {
    if y == [] {
      assert x + y == x;
    } else if ControlOrSpace(y[|y| - 1]) {
      StripTrailingAppend(x, y[..|y| - 1]);
      assert (x + y)[..|x + y| - 1] == x + y[..|y| - 1];
    }
  }

  /** The path part of a text that starts with a piece free of `?` and `#` keeps that piece. */
  lemma {:induction false} PathPartAppend(x: string, y: string)
    requires forall i :: 0 <= i < |x| ==> !EndsPath(x[i])
    ensures PathPart(x + y) == x + PathPart(y)
  {
    if x != [] {
      PathPartAppend(x[1..], y);
      assert (x + y)[0] == x[0] && !EndsPath(x[0]);
      assert (x + y)[1..] == x[1..] + y;
    } else {
      assert x + y == y;
    }
  }

  /** Splitting at the first `/` gives the piece before it, then the segments after it. */
  lemma {:induction false} SegmentsAppend(x: string, y: string)
    requires '/' !in x
    ensures Segments(x + "/" + y) == [x] + Segments(y)
  {
    if x == [] {
      assert x + "/" + y == "/" + y;
      assert ("/" + y)[1..] == y;
    } else {
      SegmentsAppend(x[1..], y);
      assert (x + "/" + y)[1..] == x[1..] + "/" + y;
      assert [x[0]] + x[1..] == x;
    }
  }

  /** An id that routes unchanged is its own parsed text, free of `/`, `?` and `#`. */
  lemma UnchangedParsesToItself(q: string)
    requires RoutesUnchanged(q)
    ensures ParsedTail(q) == q
    ensures forall i :: 0 <= i < |q| ==> q[i] != '/' && !EndsPath(q[i])
  {
    ParsedTailFixes(q);
  }

  /** A visible character other than a backslash in front of a text stays in front. */
  lemma ParsedTailCons(c: char, b: string)
    requires !ControlOrSpace(c) && c != '\\' && KeptByParser(c)
    ensures ParsedTail([c] + b) == [c] + ParsedTail(b)
  {
    ParsedTailAppend([c], b);
  }

  /** A backslash in front of a text becomes a slash in front. */
  lemma BackslashHead(b: string)
    ensures ParsedTail("\\" + b) == "/" + ParsedTail(b)
  {
    StripTrailingAppend("\\", b);
    var st := StripTrailing(b);
    DropTabsAndNewlinesAppend("\\", st);
    var d := DropTabsAndNewlines(st);
    var l := BackslashAsSlash("\\" + d);
    var r := "/" + BackslashAsSlash(d);
    assert |l| == |r|;
    forall i | 0 <= i < |l|
      ensures l[i] == r[i]
    {
      if i > 0 {
        assert ("\\" + d)[i] == d[i - 1];
      }
    }
  }

  /** The path ends at a `?` that follows a piece free of `?` and `#`. */
  lemma PathPartStops(a: string, t: string)
    requires forall i :: 0 <= i < |a| ==> !EndsPath(a[i])
    ensures PathPart(a + ("?" + t)) == a
  {
    PathPartAppend(a, "?" + t);
  }

  /** Two pieces free of `?` and `#`, joined by a slash, are all path. */
  lemma PathPartAroundSlash(a: string, b: string)
    requires forall i :: 0 <= i < |a| ==> !EndsPath(a[i])
    requires forall i :: 0 <= i < |b| ==> !EndsPath(b[i])
    ensures PathPart(a + ("/" + b)) == a + ("/" + b)
  {
    PathPartAppend(a, "/" + b);
    PathPartSlash(b);
  }

  /** A slash, then a text free of `?` and `#`, is all path. */
  lemma PathPartSlash(b: string)
    requires forall i :: 0 <= i < |b| ==> !EndsPath(b[i])
    ensures PathPart("/" + b) == "/" + b
  {
    var t := "/" + b;
    assert t[0] == '/' && t[1..] == b;
    PathPartWhole(b);
  }

  /** A text free of `?` and `#` is all path. */
  lemma PathPartWhole(t: string)
    requires forall i :: 0 <= i < |t| ==> !EndsPath(t[i])
    ensures PathPart(t) == t
  {
  }

  /** The parser reads `a?b` as the path `a`, with the query `b` cut off. */
  lemma QueryTail(a: string, b: string)
    requires RoutesUnchanged(a)
    ensures PathPart(ParsedTail(a + "?" + b)) == a
  {
    var y := "?" + b;
    assert a + "?" + b == a + y;
    ParsedTailAppend(a, y);
    ParsedTailCons('?', b);
    PathPartStops(a, ParsedTail(b));
  }

  /** A query is cut off: the upload page receives the id up to the `?`. */
  lemma QueryEndsPath(origin: string, a: string, b: string)
    requires RoutesUnchanged(a)
    ensures UploadRouteSegment(origin, Admin.GenerateUploadUrl(origin, a + "?" + b)) == Some(a)
  {
    RouteOfGeneratedLink(origin, a + "?" + b);
    QueryTail(a, b);
    SegmentRoutes(a);
  }

  /** A trailing backslash is parsed into a trailing slash. */
  lemma TrailingBackslashParsed(a: string)
    requires RoutesUnchanged(a)
    ensures ParsedTail(a + "\\") == a + "/"
  {
    ParsedTailAppend(a, "\\");
    BackslashHead([]);
    assert "\\" + [] == "\\";
    assert ParsedTail([]) == [];
  }

  /** The parser reads a trailing backslash as a trailing slash. */
  lemma TrailingBackslashTail(a: string)
    requires RoutesUnchanged(a)
    ensures PathPart(ParsedTail(a + "\\")) == a + "/"
  {
    TrailingBackslashParsed(a);
    UnchangedParsesToItself(a);
    PathPartAppend(a, "/");
    assert PathPart("/") == "/";
  }

  /** The route ignores a trailing slash after the one segment. */
  lemma TrailingSlashRoutes(a: string)
    requires SingleSegment(a)
    ensures RouteOfPath(a + "/") == Some(a)
  {
    assert '/' !in a;
    SegmentsAppend(a, []);
    assert a + "/" + [] == a + "/";
    var segs := ["upload", a, []];
    assert ["upload"] + Segments(a + "/") == segs;
    UploadIsPlain();
    assert Seqs.Lower([]) == [];
    ResolveWithoutDots([], segs);
  }

  /** An id ending in a backslash opens the path with a trailing slash, which the route
      ignores: the upload page receives the id without the backslash. */
  lemma TrailingSlashIgnored(origin: string, a: string)
    requires RoutesUnchanged(a)
    ensures UploadRouteSegment(origin, Admin.GenerateUploadUrl(origin, a + "\\")) == Some(a)
  {
    RouteOfGeneratedLink(origin, a + "\\");
    TrailingBackslashTail(a);
    TrailingSlashRoutes(a);
  }

  /** The parser reads a backslash between two plain pieces as a slash. */
  lemma InnerBackslashParsed(a: string, b: string)
    requires RoutesUnchanged(a) && RoutesUnchanged(b)
    ensures ParsedTail(a + "\\" + b) == a + ("/" + b)
  {
    var y := "\\" + b;
    assert a + "\\" + b == a + y;
    ParsedTailAppend(a, y);
    BackslashHead(b);
    UnchangedParsesToItself(b);
  }

  /** The path of such an id is the two pieces with a slash between them. */
  lemma InnerBackslashTail(a: string, b: string)
    requires RoutesUnchanged(a) && RoutesUnchanged(b)
    ensures PathPart(ParsedTail(a + "\\" + b)) == a + ("/" + b)
  {
    InnerBackslashParsed(a, b);
    UnchangedParsesToItself(a);
    UnchangedParsesToItself(b);
    PathPartAroundSlash(a, b);
  }

  /** Two plain pieces joined by a slash split into exactly those two segments. */
  lemma TwoSegments(a: string, b: string)
    requires '/' !in a && '/' !in b
    ensures Segments(a + ("/" + b)) == [a, b]
  {
    SegmentsAppend(a, b);
    assert a + "/" + b == a + ("/" + b);
  }

  /** The route does not match two non-empty segments after `upload`. */
  lemma TwoSegmentsMissRoute(a: string, b: string)
    requires SingleSegment(a) && SingleSegment(b)
    ensures RouteOfPath(a + ("/" + b)).None?
  {
    assert '/' !in a && '/' !in b;
    TwoSegments(a, b);
    var segs := ["upload", a, b];
    UploadIsPlain();
    ResolveWithoutDots([], segs);
    var path := Resolve([], segs);
    assert path == segs;
    assert path[2] != [];
  }

  /** An id with a backslash between two plain pieces never reaches the upload page: the
      parser reads the backslash as `/`, and the route does not match a two-segment path. */
  lemma BackslashIdMissesRoute(origin: string, a: string, b: string)
    requires RoutesUnchanged(a) && RoutesUnchanged(b)
    ensures UploadRouteSegment(origin, Admin.GenerateUploadUrl(origin, a + "\\" + b)).None?
  {
    RouteOfGeneratedLink(origin, a + "\\" + b);
    InnerBackslashTail(a, b);
    UnchangedParsesToItself(a);
    UnchangedParsesToItself(b);
    TwoSegmentsMissRoute(a, b);
  }

  /** The parser reads `.\a` as the text `./a`. */
  lemma DotBackslashParsed(a: string)
    requires RoutesUnchanged(a)
    ensures ParsedTail("." + "\\" + a) == ['.'] + ("/" + a)
  {
    var y := "\\" + a;
    assert "." + "\\" + a == ['.'] + y;
    ParsedTailCons('.', y);
    BackslashHead(a);
    UnchangedParsesToItself(a);
  }

  /** The parser reads `.\a` as the path `./a`. */
  lemma DotBackslashTail(a: string)
    requires RoutesUnchanged(a)
    ensures PathPart(ParsedTail("." + "\\" + a)) == ['.'] + ("/" + a)
  {
    DotBackslashParsed(a);
    UnchangedParsesToItself(a);
    PathPartAroundSlash(".", a);
  }

  /** `.` is a single-dot segment and no double-dot one. */
  lemma DotIsSingle()
    ensures IsSingleDot(".") && !IsDoubleDot(".")
  {
    assert Seqs.Lower(".")[0] == '.';
  }

  /** The route on the resolved path `upload`, `a` yields `a`. */
  lemma RouteParamOfOne(a: string)
    requires a != []
    ensures RouteParam(["upload", a]) == Some(a)
  {
    UploadIsPlain();
  }

  /** A leading `.` segment is dropped by resolution. */
  lemma DotSegmentRoutes(a: string)
    requires SingleSegment(a)
    ensures RouteOfPath(['.'] + ("/" + a)) == Some(a)
  {
    assert '/' !in a;
    var p := ['.'] + ("/" + a);
    TwoSegments(".", a);
    assert "." + ("/" + a) == p;
    var segs := ["upload"] + Segments(p);
    assert segs == ["upload"] + [".", a];
    UploadIsPlain();
    DotIsSingle();
    ResolvePlainStep([], "upload", [".", a]);
    assert [] + ["upload"] == ["upload"];
    ResolveSingleDotStep(["upload"], ".", [a]);
    assert ["."] + [a] == [".", a];
    ResolveWithoutDots(["upload"], [a]);
    assert Resolve([], segs) == ["upload", a];
    RouteParamOfOne(a);
  }

  /** A leading `.` segment is resolved away: the upload page receives what follows it. */
  lemma DotSegmentResolved(origin: string, a: string)
    requires RoutesUnchanged(a)
    ensures UploadRouteSegment(origin, Admin.GenerateUploadUrl(origin, "." + "\\" + a)) == Some(a)
  {
    RouteOfGeneratedLink(origin, "." + "\\" + a);
    DotBackslashTail(a);
    DotSegmentRoutes(a);
  }

  /** An id that routes unchanged, with a space appended, reaches the upload page without
      the space. */
  lemma TrailingSpaceIsTrimmed(origin: string, q: string)
    requires RoutesUnchanged(q)
    ensures UploadRouteSegment(origin, Admin.GenerateUploadUrl(origin, q + " ")) == Some(q)
  {
    RouteOfGeneratedLink(origin, q + " ");
    ParsedTailFixes(q);
    assert (q + " ")[..|q|] == q;
    assert StripTrailing(q + " ") == StripTrailing(q);
    assert PathPart(q) == q;
    SegmentRoutes(q);
  }

  /** The parser's deletion of a tab leaves the text around it joined. */
  lemma TabVanishes(a: string, b: string)
    ensures DropTabsAndNewlines(a + "\t" + b) == DropTabsAndNewlines(a + b)
  {
    var tb := "\t" + b;
    assert tb[0] == '\t' && tb[1..] == b;
    assert DropTabsAndNewlines(tb) == DropTabsAndNewlines(b);
    assert a + "\t" + b == a + tb;
    DropTabsAndNewlinesConcat(a, tb);
    DropTabsAndNewlinesConcat(a, b);
  }

  /** A tab inside an id is deleted: the upload page receives the id without it. */
  lemma TabIsDeleted(origin: string, a: string, b: string)
    requires |b| > 0 && RoutesUnchanged(a + b)
    ensures UploadRouteSegment(origin, Admin.GenerateUploadUrl(origin, a + "\t" + b)) == Some(a + b)
  {
    var t := a + "\t" + b;
    RouteOfGeneratedLink(origin, t);
    ParsedTailFixes(a + b);
    assert t[|t| - 1] == b[|b| - 1] == (a + b)[|a + b| - 1];
    assert StripTrailing(t) == t;
    assert StripTrailing(a + b) == a + b;
    TabVanishes(a, b);
    assert PathPart(a + b) == a + b;
    SegmentRoutes(a + b);
  }
}
